=== FILE: README.md ===
# Logger dispatch-and-aggregation core, in Dafny

This project models the core of the training-loop metrics logger in
`utils/logger.py` and proves properties of the model.

A `Logger` collects named values for each step and fans them out to output
formats ("writers") on `dump`. The model is functional. The logger is an
immutable record of:

- three maps: values, mean sample counts and exclusions;
- a severity threshold;
- an optional directory;
- the writer list.

Each method of the Python class is a pure function from one state to the
next. Where the method has a visible effect, the function also returns it:
the writer calls `dump` made, the `write_sequence` texts `log` emitted, or the
writers `close` released.

The human-readable writer (`HumanOutputFormat`) is modelled in full, as a
pure function from the two maps and `max_length` to one of three outcomes:

- the table lines;
- a `FormatUnsupportedError`;
- "nothing written, with a warning".

It covers:

- the literal `zip` of the two sorted item lists;
- exclusion skipping with Python's `in`, which is a substring test on a `str`;
- the type dispatch;
- the loop-carried `/`-tag grouping;
- `_truncate` with Python slice semantics;
- the fixed-width box layout;
- `write_sequence`.

The error message builder and the `make_output_format` factory are also
modelled.

Modules, in dependency order:

| file | module | contents |
|---|---|---|
| results.dfy | `Results` | `Option`, `Result` |
| strings.dfy | `Strings` | Python `str` ordering, `find`, `in`, `join`, `split`, `s[:j]`, `ch * n`, `max(map(len, ...))` |
| sorted_keys.dfy | `SortedKeys` | `sorted(d.items())` as the ascending key sequence |
| values.dfy | `Values` | recorded values and the `exclude` argument |
| format_errors.dfy | `FormatErrors` | `FormatUnsupportedError` and its message |
| human_format.dfy | `HumanFormat` | `HumanOutputFormat.write`, `_truncate`, `write_sequence` |
| human_rows.dfy | `HumanRows` | an independent per-entry description of the rows `write` produces, proved equal to the loop |
| human_props.dfy | `HumanProps` | truncation, layout and round-trip properties, and worked examples |
| writers.dfy | `Writers` | the writer kinds, `make_output_format`, what `close` releases |
| logger.dfy | `LoggerCore` | `Logger` and its operations |
| logger_props.dfy | `LoggerProps` | running means, key alignment invariants, `dump`/`log` properties over several calls |

### Behaviour of the code worth knowing

The model follows the code as written, including these consequences:

- **A dump that raises.** `dump` has no `try`/`finally` around the writer
  loop (lines 407-413). When a writer raises, the later writers are not
  called, the exception propagates, and the maps are not cleared: the same
  values reach the writers again on the next `dump` (`Dump`, `RunWriters`).
- **`record_mean(k, None)`.** This only stores `None` under `k`
  (lines 393-395); the count and the exclusion stay. A later numeric
  `record_mean` on `k` computes `None * count` and raises `TypeError`
  (`NullThenMeanRaises`). On a key never recorded, the value map gains a key
  that the exclusion map lacks (`RecordMeanNullBreaksAlignment`).
- **A `record_mean` that raises `TypeError`.** The two `defaultdict` reads on
  line 396 have already created the entries for the key (value 0.0, count 0),
  so it also leaves a value without an exclusion
  (`RecordMeanErrorBreaksAlignment`).
- **Pairing by position.** `write` zips the two sorted item lists by position
  (lines 146-148; `ZipByPosition`). When the maps do not have the same keys, values are paired
  with other keys' exclusions and trailing keys are dropped. For example,
  `record("b", 1)` and then `record_mean("a", None)` produce a table showing
  only `a` (`NullMeanHidesRecordedKey`).
- **Truncation collisions.** The constructor's docstring (lines 125-126) says
  an error is raised when several keys truncate to the same value. `write`
  performs no such check, and both rows are written
  (`TruncationCollisionIsWritten`).
- **`close`.** `close` calls each writer's `close` in list order with no
  error handling (lines 484-485). The model records which writers release a
  resource, in that order.

## Model

| member | source | states |
|---|---|---|
| Strings.Find | utils/logger.py:169-170 | `key.find("/")` is -1 exactly when there is no '/', otherwise the index of the first '/' |
| Strings.Lt | utils/logger.py:146-147 | Python's `str` ordering behind `sorted`: a strict total order (`Strings.LtIrreflexive`, `Strings.LtTransitive`, `Strings.LtTotal`) |
| Strings.LtIrreflexive | utils/logger.py:146-147 | no string sorts before itself |
| Strings.LtTransitive | utils/logger.py:146-147 | the ordering is transitive |
| Strings.LtTotal | utils/logger.py:146-147 | any two distinct strings are ordered one way or the other |
| Strings.Contains | utils/logger.py:150 | Python's `sub in s` on strings, holding when `sub` occurs at some position (`Strings.PrefixIsContained`, `HumanProps.SubstringExclusion`) |
| Strings.PrefixIsContained | utils/logger.py:175 | a prefix of the key, as the tag taken from it is, is `in` the key |
| Strings.PyPrefix | utils/logger.py:204 | `s[:j]` is a prefix of `s` whose length follows Python's slice rules, including negative `j` counted from the end |
| Strings.MaxLen | utils/logger.py:186-187 | `max(map(len, ...))` bounds every string's length and is reached by one of them |
| Strings.Repeat | utils/logger.py:190-194 | `ch * n` is `n` copies of `ch` |
| Strings.SplitJoin | utils/logger.py:197 | cutting a joined text at the separator gives back the parts, when no part contains it |
| Strings.JoinSplit | utils/logger.py:197 | joining the pieces of a split gives back the text |
| SortedKeys.Sorted | utils/logger.py:146-147 | the items are visited in strictly ascending key order, each key of the dict exactly once |
| FormatErrors.Message | utils/logger.py:63-72 | an empty format list fails with `IndexError`; several formats get "The formats a, b are not supported", one gets "The format a is not supported"; then " for the " and the value's description; then the closing " value logged." and the hint about `exclude`, with nothing else in the message |
| FormatErrors.MessageDeterminesDescription | utils/logger.py:69-72 | two messages about the same formats are equal only when they describe the same value |
| HumanFormat.Truncate | utils/logger.py:202-205 | a string within `max_length` is unchanged; with `max_length >= 3` a longer one becomes its first `max_length - 3` characters plus "...", exactly `max_length` long |
| HumanFormat.Zip | utils/logger.py:146-148 | each zipped entry carries a recorded key and that key's value; when both maps have the same keys every key appears, each with its own exclusion |
| HumanFormat.ZipByPosition | utils/logger.py:146-148 | entry `i` pairs the `i`-th sorted value key and its value with the exclusion of the `i`-th sorted exclusion key, whatever that key is |
| HumanFormat.ZipInKeyOrder | utils/logger.py:146-148 | the zip stops at the end of the shorter item list and visits keys in strictly increasing order |
| HumanFormat.TagOf | utils/logger.py:169-170 | the tag is a prefix of the key, at least two characters long, ending in a '/' with no other '/' before it (so the first '/') |
| HumanFormat.HasTag | utils/logger.py:169 | `key.find("/") > 0` (`HumanProps.HasTagIff`) |
| HumanProps.HasTagIff | utils/logger.py:169 | a key has a tag exactly when it contains a '/' and does not start with one |
| HumanFormat.Shown | utils/logger.py:175-176 | exactly when a tag is in force and occurs anywhere in the key (`tag in key`), the key is shown as three spaces followed by the key past the tag's length; otherwise it is shown as is |
| HumanFormat.RowLine | utils/logger.py:193-195 | a row line is `key_width + val_width + 7` characters long and starts and ends with a vertical bar |
| HumanFormat.Step | utils/logger.py:150-178 | one loop iteration raises exactly on a media value the entry is not excluded from, and otherwise only appends rows |
| HumanFormat.Scan | utils/logger.py:146-178 | the loop's errors name the formats "stdout" and "log"; with `max_length >= 3` every key and value cell fits in `max_length` |
| HumanFormat.Lines | utils/logger.py:189-196 | the output is a dash line, one line per row and a dash line, all of the same width `key_width + val_width + 7`, each row line starting and ending with a vertical bar; `HumanProps.LinesShowRows` places each row's key and value in it |
| HumanFormat.WidthBound | utils/logger.py:127-128 | with cells of at most `max_length` characters, a line is at most `2*max_length + 7` wide |
| HumanFormat.Render | utils/logger.py:141-197 | a written table has at least three lines of equal width (at least 7), dash borders and rows framed by vertical bars, and with `max_length >= 3` is at most `2*max_length + 7` wide; an error names "stdout" and "log" |
| HumanFormat.WriteSequence | utils/logger.py:207-214 | the loop writing each element, a space unless it is the last, and a newline, produces the elements joined by single spaces plus "\n" |
| HumanRows.TagsBeforeStep | utils/logger.py:171-173 | the set of seen tags grows by an entry's tag exactly when the entry is tagged, and the tag was already present exactly when the entry does not open it |
| HumanRows.ScanMatchesReference | utils/logger.py:146-178 | before any kept media value, the loop's rows, carried tag and tag set equal the per-entry description: a header row at a tag's first occurrence, then each kept entry's row under the tag in force |
| HumanRows.ScanFailsAtFirstMedia | utils/logger.py:150-160 | the loop raises exactly when some kept entry is a video, figure or image, and the error names the first such entry's type |
| HumanRows.NoRowsIffAllSkipped | utils/logger.py:150-151 | no row is produced exactly when every entry is excluded from "stdout" or "log" |
| HumanRows.HeaderUnique | utils/logger.py:171-173 | each tag gets at most one header row |
| HumanRows.HeaderExists | utils/logger.py:169-173 | every tagged entry's tag has a header row at or before it |
| HumanRows.TaggedRowShowsSuffix | utils/logger.py:174-178 | a tagged key is shown as three spaces followed by the part of the key after its first '/' |
| HumanRows.ZipCoversKeys | utils/logger.py:146-148 | with the same keys in both maps, every key is visited by the zip |
| HumanRows.ScanEmptyIff | utils/logger.py:181-183 | the loop ends without error and without rows exactly when every entry is skipped |
| HumanRows.RenderRaisesIff | utils/logger.py:150-160 | with the same keys in both maps, `write` raises exactly when a key not excluded from "stdout"/"log" holds a video, figure or image |
| HumanRows.RenderRaisesOnZipped | utils/logger.py:146-160 | for any two maps, aligned or not, `write` raises exactly when some entry of the positional zip is a kept media value |
| HumanRows.RenderEmptyIff | utils/logger.py:181-183 | with the same keys in both maps, `write` writes nothing and warns exactly when every key is excluded from "stdout"/"log" |
| HumanRows.RenderWritesExpectedRows | utils/logger.py:141-197 | a written table is the layout of the per-entry rows |
| HumanProps.TruncateIdempotent | utils/logger.py:202-205 | with `max_length >= 3`, truncating twice equals truncating once |
| HumanProps.TruncateKeepsPrefix | utils/logger.py:203-204 | the shown part of a truncated string is how the string starts, followed by "..." |
| HumanProps.TruncateBelowThreeGrows | utils/logger.py:203-204 | below 3 the slice bound counts from the end, so "abc" with `max_length` 2 becomes "ab...", longer than the input |
| HumanProps.LinesShowRows | utils/logger.py:192-195 | line `i + 1` of a table shows row `i`: its key after the opening bar and space, and its value after the key column and the middle bar |
| HumanProps.RowLineColumns | utils/logger.py:193-195 | a row line holds a bar and a space, the key, padding spaces, a bar between spaces, the value, padding spaces and a closing bar, at fixed offsets |
| HumanProps.FileTextLength | utils/logger.py:197 | the written text is exactly (line width + 1) characters per line |
| HumanFormat.FileText | utils/logger.py:197 | the lines joined by newlines plus a final newline (`HumanProps.FileTextLength`, `HumanProps.FileTextSplitsBack`) |
| HumanProps.FileTextSplitsBack | utils/logger.py:197 | the written text ends with a newline, and cutting it at newlines gives back the lines |
| HumanProps.SequenceTextSplitsBack | utils/logger.py:207-213 | `write_sequence` of nothing writes "\n"; otherwise cutting the text at spaces gives back the elements |
| HumanProps.HumanErrorMessage | utils/logger.py:65-70 | the table writer's errors read "The formats stdout, log are not supported ..." |
| Values.Names | utils/logger.py:150 | Python's `token in excluded`: a substring test on a `str`, membership on a tuple, false for `None` (see `HumanProps.SubstringExclusion`) |
| Values.ExcludedFrom | utils/logger.py:150 | `excluded is not None and token in excluded` |
| Values.MediaName | utils/logger.py:153-160 | a video is described as "video", a figure as "figure" and an image as "image", each word naming exactly its kind |
| HumanFormat.SkipsHuman | utils/logger.py:150 | an entry is skipped when its exclusion names "stdout" or "log"; `HumanProps.SubstringExclusion` shows the substring case and `HumanRows.NoRowsIffAllSkipped` what skipping does to the rows |
| HumanFormat.ValueStr | utils/logger.py:162-166 | a float is shown through the float formatter, `None` as "None" (`HumanProps.NullKeyStep`), a `str` as itself, anything else through `str()` |
| HumanProps.SubstringExclusion | utils/logger.py:150 | `exclude="catalog"` skips the table writer because "log" is a substring; the tuple `("catalog",)` does not |
| HumanProps.ZipSingleton | utils/logger.py:146-148 | one key recorded once is zipped with its own value and exclusion |
| HumanProps.ZipDropsUnmatched | utils/logger.py:146-148 | with an extra value key sorting first, it takes the other key's exclusion and the last key is dropped |
| HumanProps.RenderSingleEntry | utils/logger.py:181-197 | a single entry that yields rows is written as exactly those rows' table |
| HumanProps.FirstTaggedStep | utils/logger.py:169-178 | the first tagged entry yields a header row with its tag, then its own row |
| HumanProps.ShownUnderOwnTag | utils/logger.py:175-176 | a key starting with the tag in force is shown with the tag replaced by three spaces |
| HumanProps.TaggedKeyExample | utils/logger.py:169-178 | `{"a/b": 1.0}` is written as a header row "a/" and a row "   b" |
| HumanProps.NullKeyStep | utils/logger.py:165-166 | a `None` value is shown as "None" |
| HumanProps.ZipMisalignsKeys | utils/logger.py:146-148 | values `{a: None, b: 1}` with exclusions `{b: None}` are written as the single row "a" |
| HumanProps.RenderWrittenIff | utils/logger.py:150-183 | with the same keys in both maps, a table is written exactly when no kept value is media and at least one key is kept |
| HumanProps.TruncationCollision | utils/logger.py:202-205 | distinct keys can truncate to the same text |
| HumanProps.TruncationCollisionIsWritten | utils/logger.py:178-195 | two keys truncating to "ab..." are both written, with nothing raised and no check against the docstring's promise (lines 125-126): the table is exactly one row per key, in key order, each showing "ab..." beside its own value |
| HumanProps.UntaggedRow | utils/logger.py:169-178 | a kept entry without a tag, met while no tag is in force, adds only its own row, with the key unchanged, and leaves no tag in force |
| HumanProps.TwoPlainRows | utils/logger.py:169-178 | two kept, untagged entries give exactly their two own rows, in order |
| HumanProps.ZipPair | utils/logger.py:146-148 | two keys present in both maps are zipped in key order, each with its own value and exclusion |
| HumanProps.PlainPairWritten | utils/logger.py:141-197 | two keys recorded without exclusion and without media always produce a table |
| HumanProps.ExcludedKeyHasNoRow | utils/logger.py:150-151 | a key excluded from "stdout" or "log" contributes no row |
| Writers.JoinPath | utils/logger.py:335 | the log file path is the directory, then a '/' exactly when the directory is non-empty and does not end in one, then the file name, with nothing else inserted |
| Writers.MakeOutputFormat | utils/logger.py:323-341 | an unknown token fails with that token; "stdout" and "log" build table writers with `max_length` 36, "log" writing to `log<suffix>.txt` inside the log directory; "tensorboard" writes to the log directory |
| Writers.MakeOutputFormatNamesFormat | utils/logger.py:332-339 | a writer the factory builds is of the kind its token names |
| Writers.MakeOutputFormatFailures | utils/logger.py:323-341 | the factory fails exactly on an unknown token, on "tensorboard" without tensorboard installed, or on "wandb" without an active run |
| Writers.OwnsResource | utils/logger.py:220-221 | a table writer owning a file it opened, or a TensorBoard writer (lines 278-280), releases something on close (`Writers.Released`) |
| Writers.Released | utils/logger.py:484-485 | closing visits writers in order and releases exactly those owning a file or summary writer |
| LoggerCore.NewLogger | utils/logger.py:356-362 | a new logger has empty maps, threshold INFO, and the given directory and writers |
| LoggerCore.Record | utils/logger.py:378-379 | `record` stores the value and exclusion under the key, keeps the counts, and changes nothing else |
| LoggerCore.MeanUpdate | utils/logger.py:397 | the update is defined exactly on numeric operands and equals `(old*count + value)/(count + 1)`; a tensor operand gives a tensor |
| LoggerCore.RecordMean | utils/logger.py:393-399 | `None` stores `None` and leaves counts and exclusions; otherwise `TypeError` exactly on a non-numeric operand, or else the count grows by 1, the exclusion is set and the value is the updated mean; only the key changes |
| LoggerCore.StoredOrZero | utils/logger.py:396 | the `defaultdict(float)` read: the stored value, or 0.0 for a key never recorded (used in `LoggerCore.RecordMean`'s contract; `LoggerProps.RecordMeanErrorBreaksAlignment`) |
| LoggerCore.CountOrZero | utils/logger.py:396 | the `defaultdict(int)` read: the stored count, or 0 (used in `LoggerCore.RecordMean`'s contract) |
| LoggerCore.WriteError | utils/logger.py:409 | only a table writer raises from `write`, and it raises exactly when its rendering of the maps raises, with that error, naming "stdout" and "log"; for any maps that is when a zipped entry holds a kept media value (`HumanRows.RenderRaisesOnZipped`), and for aligned maps when a kept value is media (`LoggerProps.HumanRaisesIff`) |
| LoggerCore.CallWriters | utils/logger.py:407-409 | each writer called gets the same full maps and step, in list order; the loop completes unless a writer raises, and then the last call made is the one that raised |
| LoggerCore.CallWritersStopsAtFirstError | utils/logger.py:407-409 | the loop completes exactly when no writer raises, and every writer before the raising one did not raise |
| LoggerCore.RunWriters | utils/logger.py:407-413 | the maps are cleared exactly when every writer returned; if one raised, the state is unchanged and the error is that writer's |
| LoggerCore.Dump | utils/logger.py:401-413 | DISABLED makes no call and changes nothing; otherwise each writer gets the full maps and step in order, and afterwards the maps are empty, unless a writer raised, in which case the calls stop there and the state is unchanged |
| LoggerCore.SeqWrites | utils/logger.py:494-496 | `_do_log` writes only to sequence writers, in order, each receiving the arguments joined by spaces plus "\n" |
| LoggerCore.SeqWritesComplete | utils/logger.py:494-496 | every sequence writer is written to, and nothing is written exactly when there is none |
| LoggerCore.Log | utils/logger.py:424-425 | `log` writes exactly when the threshold is at most the level and there is a sequence writer, and then to every sequence writer |
| LoggerCore.Debug | utils/logger.py:434 | `debug` writes exactly when the threshold is at most DEBUG (and there is a sequence writer), and then sends the space-joined text to every sequence writer and to no other writer |
| LoggerCore.Info | utils/logger.py:443 | `info` writes exactly when the threshold is at most INFO (and there is a sequence writer), and then sends the space-joined text to every sequence writer and to no other writer |
| LoggerCore.Warn | utils/logger.py:452 | `warn` writes exactly when the threshold is at most WARN (and there is a sequence writer), and then sends the space-joined text to every sequence writer and to no other writer |
| LoggerCore.Error | utils/logger.py:461 | `error` writes exactly when the threshold is at most ERROR (and there is a sequence writer), and then sends the space-joined text to every sequence writer and to no other writer |
| LoggerCore.SetLevel | utils/logger.py:465-470 | `set_level` changes the threshold and nothing else |
| LoggerCore.Close | utils/logger.py:480-485 | `close` visits the writers in order, releasing exactly the owned resources |
| LoggerProps.MeanOfSamples | utils/logger.py:396-399 | after `record_mean` of n numbers on a fresh key, the value is their arithmetic mean, the count n, the exclusion the last one, and no other key changed |
| LoggerProps.MeanUpdateOnNumbers | utils/logger.py:397 | on two numbers the update is the weighted mean `(old*count + value)/(count + 1)` |
| LoggerProps.MeanStep | utils/logger.py:396-399 | one more sample on a running mean of n samples gives the mean of n + 1 samples and count n + 1 |
| LoggerProps.SumPermutation | utils/logger.py:397 | the total of the samples does not depend on their order |
| LoggerProps.MeanOrderIndependent | utils/logger.py:396-399 | averaging on a fresh key gives the same logger whatever order the samples arrive in |
| LoggerProps.RecordOverwrites | utils/logger.py:378-379 | a second `record` on a key wins outright |
| LoggerProps.NullThenMeanRaises | utils/logger.py:393-397 | after `record_mean(k, None)`, a numeric `record_mean(k, x)` raises `TypeError` |
| LoggerProps.NewLoggerInvariant | utils/logger.py:357-359 | a new logger has aligned maps and counts only for keys with values |
| LoggerProps.RecordPreservesInvariant | utils/logger.py:378-379 | `record` keeps the maps aligned |
| LoggerProps.RecordMeanPreservesInvariant | utils/logger.py:396-399 | a numeric `record_mean` that succeeds keeps the maps aligned |
| LoggerProps.RecordMeanNullBreaksAlignment | utils/logger.py:393-395 | `record_mean(k, None)` on a fresh key leaves a value without an exclusion |
| LoggerProps.RecordMeanErrorBreaksAlignment | utils/logger.py:396-397 | a `record_mean` of a non-numeric value on a fresh key raises `TypeError` after storing 0.0 without an exclusion |
| LoggerProps.DumpPreservesInvariant | utils/logger.py:405-413 | `dump` keeps the maps aligned, whether it clears them or raises |
| LoggerProps.HumanRaisesIff | utils/logger.py:150-160 | with aligned maps, a table writer raises exactly when a kept value is media |
| LoggerProps.DumpRaisesIff | utils/logger.py:405-409 | with aligned maps and not DISABLED, `dump` raises exactly when there is a table writer and a value not excluded from it is media |
| LoggerProps.NullMeanScenarioState | utils/logger.py:393-395 | `record("b", 1)` then `record_mean("a", None)` gives values `{a: None, b: 1}` and exclusions `{b: None}` |
| LoggerProps.NullMeanHidesRecordedKey | utils/logger.py:146-148 | in that state, `dump` hands the maps to the table writer, which shows only "a"; "b" is lost |
| LoggerProps.SecondDumpWritesNothing | utils/logger.py:411-413 | after a complete `dump`, the next one hands every writer empty maps and a table writer writes nothing |
| LoggerProps.DisabledSilences | utils/logger.py:405-406 | after `set_level(DISABLED)`, `dump` is a no-op and the four shorthands write nothing; only `log(..., level=DISABLED)` still writes |
| LoggerProps.LogMonotone | utils/logger.py:424-425 | a message that passes at one level passes, with the same writes, at every higher level |
| LoggerProps.ShorthandsOrdered | utils/logger.py:427-461 | whatever `debug` writes, `info` writes too; likewise `info`/`warn` and `warn`/`error` |

## Left out

- TensorBoard and W&B writers: their `write` bodies call `SummaryWriter` and `wandb`, which are not part of this model. Only their kind, their construction preconditions and what `close` releases are modelled.
- LoggerCore.WriteError: only the table writer is modelled as raising. The TensorBoard and W&B writers never raise in the model, because their failures come from foreign libraries.
- File opening, writing, flushing and closing, `sys.stdout` and `os.makedirs` are I/O. Writers are values naming their sink, and the effects of `dump`, `log` and `close` are returned as call traces.
- `configure_logger` is setup I/O around the factory and the constructor, both of which are modelled.
- `get_dir` is a field read; the directory is the `dir` field of `Logger`.
- HumanFormat.ValueStr: `f"{value:<8.3g}"` and `str()` of ints, tensors and other objects are uninterpreted functions of a `Formatter` parameter.
- LoggerCore.Log: the `str()` conversion of the arguments is left out; the arguments are given as strings.
- LoggerCore.MeanUpdate: computes over `real`, so IEEE floating-point rounding is not modelled.
- `warnings.warn` on an empty table is the `Empty` outcome of `Render`.
- The `isinstance(_format, KVWriter)` test in `dump` is always true, because every writer kind is a key-value writer. The `SeqWriter` test in `_do_log` is `IsSeqWriter`.
- The media payloads (`Video` frames and fps, `Figure` and its close flag, `Image` data format) are opaque constructors.
- Python `bool` is folded into `Int`.
- Writers.Released: `close` failures are not modelled, because the failure behaviour of the file and summary-writer objects is not part of this model.
- HumanFormat.Render: returns the lines; the text written to the file is `FileText` of them.

=== FILE: format_errors.dfy ===
/** `FormatUnsupportedError`: raised by a writer for a value type it cannot
    render, and the message it carries. */
module FormatErrors {
  import opened Results
  import opened Strings

  datatype FormatUnsupported = FormatUnsupported(formats: seq<string>, description: string)

  /** Building the message reads `formats[0]` when there are not several
      formats, so an empty list raises `IndexError` instead. */
  datatype MessageError = IndexError

  const Hint := "You can exclude formats via the `exclude` parameter of the logger's `record` function."

  /** The opening words, naming the formats with a plural or singular verb. */
  function Lead(formats: seq<string>): string
    requires |formats| > 0
  {
    if |formats| > 1 then "The formats " + Join(formats, ", ") + " are not supported"
    else "The format " + formats[0] + " is not supported"
  }

  function Message(formats: seq<string>, description: string): (r: Result<string, MessageError>)
    ensures r.Err? <==> |formats| == 0
    ensures |formats| > 1 ==> r.Ok? && IsPrefix("The formats " + Join(formats, ", ") + " are not supported", r.value)
    ensures |formats| == 1 ==> r.Ok? && IsPrefix("The format " + formats[0] + " is not supported", r.value)
    ensures r.Ok? ==> IsSuffix(" value logged.\n" + Hint, r.value)
    ensures r.Ok? ==>
      var n := |Lead(formats)|;
      n + 9 + |description| <= |r.value| && r.value[n..n + 9 + |description|] == " for the " + description
    ensures r.Ok? ==> |r.value| == |Lead(formats)| + 9 + |description| + |" value logged.\n" + Hint|
  {
    if |formats| == 0 then Err(IndexError)
    else Ok(Compose(Lead(formats), description, " value logged.\n" + Hint))
  }

  /** The lead words, then the value's description, then the closing text. */
  function Compose(head: string, description: string, tail: string): (m: string)
    ensures IsPrefix(head, m) && IsSuffix(tail, m)
    ensures |head| + 9 + |description| <= |m| && m[|head|..|head| + 9 + |description|] == " for the " + description
    ensures |m| == |head| + 9 + |description| + |tail|
  {
    ConcatParts(head, " for the " + description, tail);
    head + " for the " + description + tail
  }

  predicate IsSuffix(t: string, s: string) {
    |t| <= |s| && s[|s| - |t|..] == t
  }

  lemma ConcatParts(a: string, b: string, c: string)
    ensures IsPrefix(a, a + b + c)
    ensures IsSuffix(c, a + b + c)
    ensures |a| + |b| <= |a + b + c| && (a + b + c)[|a|..|a| + |b|] == b
  {
    assert (a + b + c)[..|a|] == a;
    assert (a + b + c)[|a + b|..] == c;
  }

  /** Two messages about the same formats are equal only if they describe the
      same value. */
  lemma MessageDeterminesDescription(formats: seq<string>, d1: string, d2: string)
    requires |formats| > 0
    requires Message(formats, d1) == Message(formats, d2)
    ensures d1 == d2
  {
    var p := Lead(formats) + " for the ";
    var tail := " value logged.\n" + Hint;
    assert Message(formats, d1).value == p + d1 + tail;
    assert Message(formats, d2).value == p + d2 + tail;
    MiddleDetermined(p, d1, d2, tail);
  }

  lemma MiddleDetermined(p: string, d1: string, d2: string, t: string)
    requires p + d1 + t == p + d2 + t
    ensures d1 == d2
  {
    assert |d1| == |d2|;
    assert d1 == (p + d1 + t)[|p|..|p| + |d1|];
    assert d2 == (p + d2 + t)[|p|..|p| + |d2|];
  }
}

=== FILE: human_format.dfy ===
/** `HumanOutputFormat`: renders one dump as a box-drawn ASCII table, and
    free-form log lines as space-joined text. */
module HumanFormat {
  import opened Results
  import opened Strings
  import opened SortedKeys
  import opened Values
  import opened FormatErrors

  /** The `max_length` a writer gets when none is given. */
  const DefaultMaxLength := 36

  /** The formats the table writer stands for in its error messages. */
  const HumanFormats := ["stdout", "log"]

  /** Python's `f"{value:<8.3g}"` for a `float` and `str(value)` for an `int`
      or a tensor; the model does not interpret either. */
  datatype Formatter = Formatter(float: real -> string, other: Value -> string)

  /** The text shown for a non-media value. */
  function ValueStr(v: Value, fmt: Formatter): string {
    if v.Num? then fmt.float(v.x)
    else if v.Text? then v.s
    else if v.Null? then "None"
    else fmt.other(v)
  }

  /** `_truncate`: a string longer than `maxLength` keeps its first
      `maxLength - 3` characters (a Python slice, so negative bounds count
      from the end) followed by "...". */
  function Truncate(s: string, maxLength: int): (r: string)
    ensures |s| <= maxLength ==> r == s
    ensures maxLength >= 3 ==> |r| <= maxLength
    ensures maxLength >= 3 && |s| > maxLength ==> |r| == maxLength && r == s[..maxLength - 3] + "..."
  {
    if |s| > maxLength then PyPrefix(s, maxLength - 3) + "..." else s
  }

  /** One step of the loop in `write`: a key, its value, and the exclusion it
      was paired with by the zip. */
  datatype Entry = Entry(key: string, value: Value, excl: Excl)

  /** `zip(sorted(key_values.items()), sorted(key_excluded.items()))`: the i-th
      key and value are paired with the i-th exclusion, whatever its key, and
      the longer list is cut short. */
  function Zip(values: map<string, Value>, excluded: map<string, Excl>): (es: seq<Entry>)
    ensures |es| <= |values| && |es| <= |excluded|
    ensures forall i :: 0 <= i < |es| ==> es[i].key in values && es[i].value == values[es[i].key]
    ensures values.Keys == excluded.Keys ==>
      |es| == |values| && forall i :: 0 <= i < |es| ==> es[i].excl == excluded[es[i].key]
  {
    var vk := Sorted(values.Keys);
    var ek := Sorted(excluded.Keys);
    var n := if |vk| <= |ek| then |vk| else |ek|;
    assert |vk| == |values| && |ek| == |excluded|;
    assert values.Keys == excluded.Keys ==> vk == ek;
    seq(n, i requires 0 <= i < n => Entry(vk[i], values[vk[i]], excluded[ek[i]]))
  }

  /** The zip pairs by position: entry `i` is the `i`-th key of the value
      map in sorted order, with its value, and the exclusion of the `i`-th key
      of the exclusion map in sorted order, whatever that key is. */
  lemma ZipByPosition(values: map<string, Value>, excluded: map<string, Excl>)
    ensures var es, vk, ek := Zip(values, excluded), Sorted(values.Keys), Sorted(excluded.Keys);
      forall i :: 0 <= i < |es| ==>
        i < |vk| && i < |ek| && es[i] == Entry(vk[i], values[vk[i]], excluded[ek[i]])
  {
    assert |Sorted(values.Keys)| == |values| && |Sorted(excluded.Keys)| == |excluded|;
  }

  /** The zip runs through the keys in sorted order and stops at the end of
      the shorter of the two item lists. */
  lemma ZipInKeyOrder(values: map<string, Value>, excluded: map<string, Excl>)
    ensures var es := Zip(values, excluded);
      && (|es| == |values| || |es| == |excluded|)
      && forall i, j :: 0 <= i < j < |es| ==> Lt(es[i].key, es[j].key)
  {
    var es := Zip(values, excluded);
    var vk := Sorted(values.Keys);
    assert |vk| == |values| && |Sorted(excluded.Keys)| == |excluded|;
    assert forall i :: 0 <= i < |es| ==> es[i].key == vk[i];
  }

  /** A table row: the displayed key and value. */
  datatype Row = Row(key: string, val: string)

  /** The loop variables of `write`: the rows so far, the loop-carried `tag`
      and the set of tags already given a header row. */
  datatype ScanState = ScanState(rows: seq<Row>, tag: Option<string>, tags: set<string>)

  const Start := ScanState([], None, {})

  /** `excluded is not None and ("stdout" in excluded or "log" in excluded)`. */
  predicate SkipsHuman(e: Excl) {
    ExcludedFrom(e, "stdout") || ExcludedFrom(e, "log")
  }

  predicate HasTag(key: string) {
    Find(key, '/') > 0
  }

  /** `key[: key.find("/") + 1]`: the key up to and including its first '/'. */
  function TagOf(key: string): (t: string)
    requires HasTag(key)
    ensures IsPrefix(t, key) && 2 <= |t| && t[|t| - 1] == '/'
    ensures '/' !in t[..|t| - 1]
  {
    key[..Find(key, '/') + 1]
  }

  /** The key as displayed: when the current tag occurs anywhere in it, the
      first `len(tag)` characters are replaced by three spaces. */
  function Shown(key: string, tag: Option<string>): (r: string)
    ensures tag.None? ==> r == key
    ensures r != key ==> tag.Some? && |tag.value| <= |key| && r == "   " + key[|tag.value|..]
    ensures tag.Some? && Contains(key, tag.value) ==> |tag.value| <= |key| && r == "   " + key[|tag.value|..]
    ensures tag.Some? && !Contains(key, tag.value) ==> r == key
  {
    if tag.Some? && Contains(key, tag.value) then "   " + key[|tag.value|..] else key
  }

  /** One iteration of the loop in `write`. */
  function Step(st: ScanState, e: Entry, maxLength: int, fmt: Formatter): (r: Result<ScanState, FormatUnsupported>)
    ensures r.Err? <==> !SkipsHuman(e.excl) && IsMedia(e.value)
    ensures r.Ok? ==> st.rows <= r.value.rows
  {
    if SkipsHuman(e.excl) then Ok(st)
    else if IsMedia(e.value) then Err(FormatUnsupported(HumanFormats, MediaName(e.value)))
    else
      var st1 :=
        if !HasTag(e.key) then st
        else
          var t := TagOf(e.key);
          if t in st.tags then st.(tag := Some(t))
          else ScanState(st.rows + [Row(Truncate(t, maxLength), "")], Some(t), st.tags + {t});
      var row := Row(Truncate(Shown(e.key, st1.tag), maxLength), Truncate(ValueStr(e.value, fmt), maxLength));
      Ok(st1.(rows := st1.rows + [row]))
  }

  /** The loop of `write` over the first `n` entries; the first error raised
      ends it. */
  function Scan(es: seq<Entry>, n: nat, maxLength: int, fmt: Formatter): (r: Result<ScanState, FormatUnsupported>)
    requires n <= |es|
    ensures r.Err? ==> r.error.formats == HumanFormats
    ensures r.Ok? && maxLength >= 3 ==>
      forall i :: 0 <= i < |r.value.rows| ==> |r.value.rows[i].key| <= maxLength && |r.value.rows[i].val| <= maxLength
  {
    if n == 0 then Ok(Start)
    else
      match Scan(es, n - 1, maxLength, fmt)
      case Err(e) => Err(e)
      case Ok(st) => Step(st, es[n - 1], maxLength, fmt)
  }

  function Keys(rows: seq<Row>): (ks: seq<string>)
    ensures |ks| == |rows| && forall i :: 0 <= i < |rows| ==> ks[i] == rows[i].key
  {
    seq(|rows|, i requires 0 <= i < |rows| => rows[i].key)
  }

  function Vals(rows: seq<Row>): (vs: seq<string>)
    ensures |vs| == |rows| && forall i :: 0 <= i < |rows| ==> vs[i] == rows[i].val
  {
    seq(|rows|, i requires 0 <= i < |rows| => rows[i].val)
  }

  /** The table's line width: the widest key, the widest value, and the seven
      border characters `| `, ` | ` and ` |`. */
  function Width(rows: seq<Row>): nat {
    MaxLen(Keys(rows)) + MaxLen(Vals(rows)) + 7
  }

  function RowLine(row: Row, keyWidth: nat, valWidth: nat): (line: string)
    requires |row.key| <= keyWidth && |row.val| <= valWidth
    ensures |line| == keyWidth + valWidth + 7
    ensures line[0] == '|' && line[|line| - 1] == '|'
  {
    "| " + row.key + Repeat(' ', keyWidth - |row.key|) + " | " + row.val + Repeat(' ', valWidth - |row.val|) + " |"
  }

  /** The lines `write` emits for a non-empty list of rows: a dash line, one
      line per row, a dash line. */
  function Lines(rows: seq<Row>): (lines: seq<string>)
    requires |rows| > 0
    ensures |lines| == |rows| + 2
    ensures forall i :: 0 <= i < |lines| ==> |lines[i]| == Width(rows)
    ensures lines[0] == lines[|lines| - 1] == Repeat('-', Width(rows))
    ensures forall i :: 1 <= i < |lines| - 1 ==> lines[i][0] == '|' && lines[i][|lines[i]| - 1] == '|'
  {
    var kw, vw := MaxLen(Keys(rows)), MaxLen(Vals(rows));
    var dashes := Repeat('-', kw + vw + 7);
    [dashes] + seq(|rows|, i requires 0 <= i < |rows| => RowLine(rows[i], kw, vw)) + [dashes]
  }

  /** Rows no wider than `maxLength` give lines no wider than
      `2 * maxLength + 7`. */
  lemma WidthBound(rows: seq<Row>, maxLength: int)
    requires forall i :: 0 <= i < |rows| ==> |rows[i].key| <= maxLength && |rows[i].val| <= maxLength
    ensures Width(rows) <= 2 * maxLength + 7 || |rows| == 0
  {
    if |rows| > 0 {
      var ks, vs := Keys(rows), Vals(rows);
      var i :| 0 <= i < |ks| && |ks[i]| == MaxLen(ks);
      var j :| 0 <= j < |vs| && |vs[j]| == MaxLen(vs);
      assert |rows[i].key| <= maxLength && |rows[j].val| <= maxLength;
    }
  }

  /** What one call of `write` does: writes lines, raises, or writes nothing
      (and warns) because every entry was skipped. */
  datatype Rendered = Written(lines: seq<string>) | Unsupported(error: FormatUnsupported) | Empty

  /** `HumanOutputFormat.write(key_values, key_excluded, step)`. */
  function Render(values: map<string, Value>, excluded: map<string, Excl>, maxLength: int, fmt: Formatter): (r: Rendered)
    ensures r.Unsupported? ==> r.error.formats == HumanFormats
    ensures r.Written? ==>
      && |r.lines| >= 3
      && (forall i :: 0 <= i < |r.lines| ==> 7 <= |r.lines[i]| == |r.lines[0]|)
      && (forall c :: 0 <= c < |r.lines[0]| ==> r.lines[0][c] == '-')
      && r.lines[|r.lines| - 1] == r.lines[0]
      && (forall i :: 0 < i < |r.lines| - 1 ==> r.lines[i][0] == '|' && r.lines[i][|r.lines[i]| - 1] == '|')
      && (maxLength >= 3 ==> |r.lines[0]| <= 2 * maxLength + 7)
  {
    var es := Zip(values, excluded);
    match Scan(es, |es|, maxLength, fmt)
    case Err(e) => Unsupported(e)
    case Ok(st) =>
      if |st.rows| == 0 then Empty
      else
        if maxLength >= 3 then
          WidthBound(st.rows, maxLength);
          Written(Lines(st.rows))
        else Written(Lines(st.rows))
  }

  /** The text written to the file: `"\n".join(lines) + "\n"`. */
  function FileText(lines: seq<string>): string {
    Join(lines, "\n") + "\n"
  }

  /** The text `write_sequence` emits: the elements separated by single
      spaces, then a newline. */
  function SequenceText(elems: seq<string>): string {
    Join(elems, " ") + "\n"
  }

  /** `write_sequence`, step by step as the source writes it: each element,
      a space unless it is the last, and a final newline. */
  method WriteSequence(sequence: seq<string>) returns (text: string)
    ensures text == SequenceText(sequence)
  {
    text := "";
    var i := 0;
    while i < |sequence|
      invariant 0 <= i <= |sequence|
      invariant i == 0 ==> text == ""
      invariant 0 < i ==> text == Join(sequence[..i], " ") + (if i < |sequence| then " " else "")
    {
      if i > 0 {
        JoinSnoc(sequence[..i], " ", sequence[i]);
        assert sequence[..i + 1] == sequence[..i] + [sequence[i]];
      }
      text := text + sequence[i];
      if i < |sequence| - 1 {
        text := text + " ";
      }
      i := i + 1;
    }
    assert i > 0 ==> sequence[..i] == sequence;
    text := text + "\n";
  }
}

=== FILE: human_props.dfy ===
/** Properties of the table writer's output: truncation, line geometry, the
    text written, and the behaviour on particular inputs. */
module HumanProps {
  import opened Results
  import opened Strings
  import opened SortedKeys
  import opened Values
  import opened FormatErrors
  import opened HumanFormat
  import opened HumanRows

  /** With `maxLength >= 3`, truncating twice is truncating once. */
  lemma TruncateIdempotent(s: string, maxLength: int)
    requires maxLength >= 3
    ensures Truncate(Truncate(s, maxLength), maxLength) == Truncate(s, maxLength)
  {
  }

  /** A truncated string keeps a prefix of the original: what is shown before
      the "..." is how the string starts. */
  lemma TruncateKeepsPrefix(s: string, maxLength: int)
    requires maxLength >= 3 && |s| > maxLength
    ensures var r := Truncate(s, maxLength);
      IsPrefix(r[..maxLength - 3], s) && r[maxLength - 3..] == "..."
  {
  }

  /** Below 3, the slice bound is negative and counts from the end, so the
      "truncated" string can be longer than the limit. */
  lemma TruncateBelowThreeGrows()
    ensures Truncate("abc", 2) == "ab..."
  {
    assert PyPrefix("abc", -1) == "ab";
  }

  /** The columns of a table line: the borders, the key and the value at
      fixed offsets, and space padding in between. */
  lemma RowLineColumns(row: Row, keyWidth: nat, valWidth: nat)
    requires |row.key| <= keyWidth && |row.val| <= valWidth
    ensures var line := RowLine(row, keyWidth, valWidth);
      && |line| == keyWidth + valWidth + 7
      && line[..2] == "| "
      && line[2..2 + |row.key|] == row.key
      && (forall c :: 2 + |row.key| <= c < keyWidth + 2 ==> line[c] == ' ')
      && line[keyWidth + 2..keyWidth + 5] == " | "
      && line[keyWidth + 5..keyWidth + 5 + |row.val|] == row.val
      && (forall c :: keyWidth + 5 + |row.val| <= c < keyWidth + valWidth + 5 ==> line[c] == ' ')
      && line[keyWidth + valWidth + 5..] == " |"
  {
    RowLineLeft(row, keyWidth, valWidth);
    RowLineRight(row, keyWidth, valWidth);
  }

  /** Line `i + 1` of a table shows row `i`: its key after the opening
      "| ", and its value after the key column and " | ". */
  lemma LinesShowRows(rows: seq<Row>, i: nat)
    requires i < |rows|
    ensures var line, kw := Lines(rows)[i + 1], MaxLen(Keys(rows));
      && line[2..2 + |rows[i].key|] == rows[i].key
      && line[kw + 5..kw + 5 + |rows[i].val|] == rows[i].val
  {
    var kw, vw := MaxLen(Keys(rows)), MaxLen(Vals(rows));
    LineOfRow(rows, i, kw, vw);
    RowLineCells(rows[i], kw, vw);
  }

  lemma RowLineCells(row: Row, kw: nat, vw: nat)
    requires |row.key| <= kw && |row.val| <= vw
    ensures var line := RowLine(row, kw, vw);
      && line[2..2 + |row.key|] == row.key
      && line[kw + 5..kw + 5 + |row.val|] == row.val
  {
    RowLineColumns(row, kw, vw);
  }

  lemma LineOfRow(rows: seq<Row>, i: nat, kw: nat, vw: nat)
    requires i < |rows| && kw == MaxLen(Keys(rows)) && vw == MaxLen(Vals(rows))
    ensures |rows[i].key| <= kw && |rows[i].val| <= vw
    ensures Lines(rows)[i + 1] == RowLine(rows[i], kw, vw)
  {
    assert Keys(rows)[i] == rows[i].key && Vals(rows)[i] == rows[i].val;
  }

  lemma RowLineLeft(row: Row, keyWidth: nat, valWidth: nat)
    requires |row.key| <= keyWidth && |row.val| <= valWidth
    ensures var line := RowLine(row, keyWidth, valWidth);
      && |line| == keyWidth + valWidth + 7
      && line[..2] == "| "
      && line[2..2 + |row.key|] == row.key
      && (forall c :: 2 + |row.key| <= c < keyWidth + 2 ==> line[c] == ' ')
  {
    var line := RowLine(row, keyWidth, valWidth);
    var left := "| " + row.key + Repeat(' ', keyWidth - |row.key|);
    var rest := " | " + row.val + Repeat(' ', valWidth - |row.val|) + " |";
    assert line == left + rest;
    LeftColumns(row.key, keyWidth);
    PrefixSlice(left, rest, 0, 2);
    PrefixSlice(left, rest, 2, 2 + |row.key|);
    forall c | 2 + |row.key| <= c < keyWidth + 2
      ensures line[c] == ' '
    {
      assert line[c] == left[c];
    }
  }

  lemma RowLineRight(row: Row, keyWidth: nat, valWidth: nat)
    requires |row.key| <= keyWidth && |row.val| <= valWidth
    ensures var line := RowLine(row, keyWidth, valWidth);
      && |line| == keyWidth + valWidth + 7
      && line[keyWidth + 2..keyWidth + 5] == " | "
      && line[keyWidth + 5..keyWidth + 5 + |row.val|] == row.val
      && (forall c :: keyWidth + 5 + |row.val| <= c < keyWidth + valWidth + 5 ==> line[c] == ' ')
      && line[keyWidth + valWidth + 5..] == " |"
  {
    var line := RowLine(row, keyWidth, valWidth);
    var left := "| " + row.key + Repeat(' ', keyWidth - |row.key|) + " | ";
    var right := row.val + Repeat(' ', valWidth - |row.val|) + " |";
    assert line == left + right;
    assert |left| == keyWidth + 5;
    RightColumns(row.val, valWidth);
    SuffixSlice(left, right, 0, |row.val|);
    SuffixSlice(left, right, valWidth, valWidth + 2);
    assert line[keyWidth + 2..keyWidth + 5] == left[keyWidth + 2..];
    forall c | keyWidth + 5 + |row.val| <= c < keyWidth + valWidth + 5
      ensures line[c] == ' '
    {
      assert line[c] == right[c - keyWidth - 5];
    }
  }

  lemma LeftColumns(key: string, keyWidth: nat)
    requires |key| <= keyWidth
    ensures var left := "| " + key + Repeat(' ', keyWidth - |key|);
      && |left| == keyWidth + 2
      && left[..2] == "| " && left[2..2 + |key|] == key
      && forall c :: 2 + |key| <= c < keyWidth + 2 ==> left[c] == ' '
  {
    var left := "| " + key + Repeat(' ', keyWidth - |key|);
    forall c | 2 + |key| <= c < keyWidth + 2
      ensures left[c] == ' '
    {
      assert left[c] == Repeat(' ', keyWidth - |key|)[c - 2 - |key|];
    }
  }

  lemma RightColumns(val: string, valWidth: nat)
    requires |val| <= valWidth
    ensures var right := val + Repeat(' ', valWidth - |val|) + " |";
      && |right| == valWidth + 2
      && right[..|val|] == val && right[valWidth..] == " |"
      && forall c :: |val| <= c < valWidth ==> right[c] == ' '
  {
    var right := val + Repeat(' ', valWidth - |val|) + " |";
    forall c | |val| <= c < valWidth
      ensures right[c] == ' '
    {
      assert right[c] == Repeat(' ', valWidth - |val|)[c - |val|];
    }
  }

  lemma PrefixSlice(a: string, b: string, i: nat, j: nat)
    requires i <= j <= |a|
    ensures (a + b)[i..j] == a[i..j]
  {
  }

  lemma SuffixSlice(a: string, b: string, i: nat, j: nat)
    requires i <= j <= |b|
    ensures (a + b)[|a| + i..|a| + j] == b[i..j]
  {
  }

  lemma {:induction false} JoinLength(lines: seq<string>, w: nat)
    requires |lines| > 0
    requires forall i :: 0 <= i < |lines| ==> |lines[i]| == w
    ensures |Join(lines, "\n")| == |lines| * (w + 1) - 1
    decreases |lines|
  {
    if |lines| > 1 {
      JoinLength(lines[1..], w);
    }
  }

  /** The text of a table: every line is `w` characters and a newline. */
  lemma FileTextLength(lines: seq<string>, w: nat)
    requires |lines| > 0
    requires forall i :: 0 <= i < |lines| ==> |lines[i]| == w
    ensures |FileText(lines)| == |lines| * (w + 1)
  {
    JoinLength(lines, w);
  }

  /** The file text ends with a newline and, cut at its newlines, gives back
      the lines (when no line holds a newline itself). */
  lemma FileTextSplitsBack(lines: seq<string>)
    requires |lines| > 0
    requires forall i :: 0 <= i < |lines| ==> '\n' !in lines[i]
    ensures var t := FileText(lines);
      t[|t| - 1] == '\n' && Split(t[..|t| - 1], '\n') == lines
  {
    var t := FileText(lines);
    assert t[..|t| - 1] == Join(lines, "\n");
    SplitJoin(lines, '\n');
  }

  /** `write_sequence` of nothing writes a bare newline; otherwise the text,
      cut at its spaces, gives back the elements (when none holds a space). */
  lemma SequenceTextSplitsBack(elems: seq<string>)
    requires forall i :: 0 <= i < |elems| ==> ' ' !in elems[i]
    ensures var t := SequenceText(elems);
      && t[|t| - 1] == '\n'
      && (|elems| == 0 ==> t == "\n")
      && (|elems| > 0 ==> Split(t[..|t| - 1], ' ') == elems)
  {
    var t := SequenceText(elems);
    assert t[..|t| - 1] == Join(elems, " ");
    if |elems| > 0 {
      SplitJoin(elems, ' ');
    }
  }

  lemma HumanFormatsJoined()
    ensures Join(HumanFormats, ", ") == "stdout, log"
  {
    assert HumanFormats[1..] == ["log"];
  }

  /** The errors the table writer raises read "The formats stdout, log are not
      supported for the <type> value logged." */
  lemma HumanErrorMessage(description: string)
    ensures Join(HumanFormats, ", ") == "stdout, log"
    ensures Message(HumanFormats, description).Ok?
    ensures IsPrefix("The formats " + Join(HumanFormats, ", ") + " are not supported", Message(HumanFormats, description).value)
  {
    HumanFormatsJoined();
  }

  /** The exclusion `"catalog"` is a `str`, and "log" is a substring of it, so
      the table writer skips the key. */
  lemma SubstringExclusion()
    ensures SkipsHuman(Str("catalog"))
    ensures !SkipsHuman(Tup(["catalog"]))
  {
    assert IsPrefix("log", "catalog"[4..]);
  }

  lemma ZipSingleton(k: string, v: Value, e: Excl)
    ensures Zip(map[k := v], map[k := e]) == [Entry(k, v, e)]
  {
    assert map[k := v].Keys == {k};
    assert map[k := e].Keys == {k};
    assert Sorted({k}) == [k];
  }

  lemma ZipDropsUnmatched(a: string, b: string, va: Value, vb: Value, eb: Excl)
    requires Lt(a, b)
    ensures Zip(map[a := va, b := vb], map[b := eb]) == [Entry(a, va, eb)]
  {
    LtIrreflexive(a);
    assert map[a := va, b := vb].Keys == {a, b};
    assert map[b := eb].Keys == {b};
    var r := Sorted({a, b});
    assert r[0] in {a, b} && r[1] in {a, b};
    if r[0] == b {
      assert r[1] == a;
      LtTransitive(a, b, a);
    }
    assert Sorted({b}) == [b];
  }

  lemma RenderSingleEntry(values: map<string, Value>, excluded: map<string, Excl>, e: Entry, maxLength: int, fmt: Formatter)
    requires Zip(values, excluded) == [e]
    requires Step(Start, e, maxLength, fmt).Ok? && |Step(Start, e, maxLength, fmt).value.rows| > 0
    ensures Render(values, excluded, maxLength, fmt) == Written(Lines(Step(Start, e, maxLength, fmt).value.rows))
  {
    assert Scan([e], 1, maxLength, fmt) == Step(Start, e, maxLength, fmt);
  }

  /** The first kept entry whose key carries a tag opens that tag: a header
      row, then the entry's own row. */
  lemma FirstTaggedStep(e: Entry, maxLength: int, fmt: Formatter, t: string, shown: string)
    requires !SkipsHuman(e.excl) && !IsMedia(e.value) && HasTag(e.key)
    requires TagOf(e.key) == t && Shown(e.key, Some(t)) == shown
    ensures Step(Start, e, maxLength, fmt) ==
      Ok(ScanState([Row(Truncate(t, maxLength), ""), Row(Truncate(shown, maxLength), Truncate(ValueStr(e.value, fmt), maxLength))], Some(t), {t}))
  {
    StepOnTagged(Start, e, maxLength, fmt);
    assert t !in Start.tags && Start.tags + {t} == {t};
    var header := Row(Truncate(t, maxLength), "");
    var own := OwnRow(e, Some(t), maxLength, fmt);
    assert own == Row(Truncate(shown, maxLength), Truncate(ValueStr(e.value, fmt), maxLength));
    assert Start.rows + [header] + [own] == [header, own];
  }

  lemma TaggedKeyFacts()
    ensures HasTag("a/b") && TagOf("a/b") == "a/" && Shown("a/b", Some("a/")) == "   b"
  {
    SlashAtOne();
    assert "a/b"[..2] == "a/";
    ShownUnderOwnTag("a/b", "a/");
    assert "a/b"[2..] == "b";
  }

  lemma SlashAtOne()
    ensures Find("a/b", '/') == 1
  {
    var key := "a/b";
    assert key[1] == '/' && key[..1] == "a";
  }

  /** A key that starts with the tag in force is shown with the tag
      replaced by three spaces. */
  lemma ShownUnderOwnTag(key: string, t: string)
    requires IsPrefix(t, key)
    ensures Shown(key, Some(t)) == "   " + key[|t|..]
  {
    PrefixIsContained(t, key);
  }

  /** `record("a/b", 1.0)` followed by a dump: a header row for the tag "a/"
      and the key shown as "   b". */
  lemma TaggedKeyExample(fmt: Formatter)
    ensures Render(map["a/b" := Num(1.0)], map["a/b" := NoExcl], DefaultMaxLength, fmt)
      == Written(Lines([Row("a/", ""), Row("   b", Truncate(fmt.float(1.0), DefaultMaxLength))]))
  {
    var e := Entry("a/b", Num(1.0), NoExcl);
    ZipSingleton("a/b", Num(1.0), NoExcl);
    TaggedKeyFacts();
    assert !SkipsHuman(NoExcl) && !IsMedia(Num(1.0));
    FirstTaggedStep(e, DefaultMaxLength, fmt, "a/", "   b");
    assert Truncate("a/", DefaultMaxLength) == "a/";
    assert Truncate("   b", DefaultMaxLength) == "   b";
    RenderSingleEntry(map["a/b" := Num(1.0)], map["a/b" := NoExcl], e, DefaultMaxLength, fmt);
  }

  lemma NullKeyStep(fmt: Formatter)
    ensures Step(Start, Entry("a", Null, NoExcl), DefaultMaxLength, fmt) == Ok(ScanState([Row("a", "None")], None, {}))
  {
    var e := Entry("a", Null, NoExcl);
    assert Find("a", '/') == -1;
    assert !HasTag("a") && !SkipsHuman(NoExcl) && !IsMedia(Null);
    assert Truncate("a", DefaultMaxLength) == "a";
    assert Truncate(ValueStr(Null, fmt), DefaultMaxLength) == "None";
    StepOnUntagged(Start, e, DefaultMaxLength, fmt);
    assert Shown("a", None) == "a";
    assert OwnRow(e, None, DefaultMaxLength, fmt) == Row("a", "None");
    assert Start.rows + [Row("a", "None")] == [Row("a", "None")];
  }

  /** Keys are paired with exclusions by position, not by name. After
      `record("b", 1)` and `record_mean("a", None)` the exclusion map lacks
      "a", so "a" takes "b"'s exclusion and "b" falls off the end of the zip:
      only "a" is written. */
  lemma ZipMisalignsKeys(fmt: Formatter)
    ensures Render(map["a" := Null, "b" := Int(1)], map["b" := NoExcl], DefaultMaxLength, fmt)
      == Written(Lines([Row("a", "None")]))
  {
    var e := Entry("a", Null, NoExcl);
    assert Lt("a", "b");
    ZipDropsUnmatched("a", "b", Null, Int(1), NoExcl);
    NullKeyStep(fmt);
    RenderSingleEntry(map["a" := Null, "b" := Int(1)], map["b" := NoExcl], e, DefaultMaxLength, fmt);
  }

  /** With aligned maps the table is written exactly when no kept value is
      media and at least one key is kept. */
  lemma RenderWrittenIff(values: map<string, Value>, excluded: map<string, Excl>, maxLength: int, fmt: Formatter)
    requires values.Keys == excluded.Keys
    ensures Render(values, excluded, maxLength, fmt).Written? <==>
      (forall k :: k in values && !SkipsHuman(excluded[k]) ==> !IsMedia(values[k])) &&
      (exists k :: k in values && !SkipsHuman(excluded[k]))
  {
    RenderRaisesIff(values, excluded, maxLength, fmt);
    RenderEmptyIff(values, excluded, maxLength, fmt);
  }

  /** `key.find("/") > 0`: the key has a '/', and does not start with one. */
  lemma HasTagIff(key: string)
    ensures HasTag(key) <==> |key| > 0 && key[0] != '/' && '/' in key
  {
  }

  lemma TruncationCollision()
    ensures Truncate("abcdeX", 5) == Truncate("abcdeY", 5) == "ab..."
  {
    assert "abcdeX"[..2] == "abcdeY"[..2] == "ab";
  }

  /** Two keys that truncate to the same text are both written, without an
      error (the constructor's documentation says this raises; the code does
      not check): the table holds one row per key, both showing "ab...",
      each beside its own value. */
  lemma TruncationCollisionIsWritten(fmt: Formatter)
    ensures Truncate("abcdeX", 5) == Truncate("abcdeY", 5) == "ab..."
    ensures Render(CollisionValues(), CollisionExcluded(), 5, fmt) == Written(Lines([
      Row("ab...", Truncate(ValueStr(Int(1), fmt), 5)),
      Row("ab...", Truncate(ValueStr(Int(2), fmt), 5))]))
  {
    TruncationCollision();
    PlainPairWritten("abcdeX", "abcdeY", Int(1), Int(2), 5, fmt);
    RenderWritesExpectedRows(CollisionValues(), CollisionExcluded(), 5, fmt);
    CollisionRows(fmt);
  }

  function CollisionValues(): map<string, Value> {
    map["abcdeX" := Int(1), "abcdeY" := Int(2)]
  }

  function CollisionExcluded(): map<string, Excl> {
    map["abcdeX" := NoExcl, "abcdeY" := NoExcl]
  }

  /** The collision example's rows: each key's own row, in key order. */
  lemma CollisionRows(fmt: Formatter)
    ensures var es := Zip(CollisionValues(), CollisionExcluded());
      ExpectedRows(es, |es|, 5, fmt) == [
        Row("ab...", Truncate(ValueStr(Int(1), fmt), 5)),
        Row("ab...", Truncate(ValueStr(Int(2), fmt), 5))]
  {
    var es := CollisionEntries();
    TruncationCollision();
    TwoPlainRows(es, 5, fmt);
  }

  /** Two kept, untagged entries give exactly their own two rows, with the
      keys as they are. */
  lemma TwoPlainRows(es: seq<Entry>, maxLength: int, fmt: Formatter)
    requires |es| == 2 && Kept(es[0]) && Kept(es[1]) && !HasTag(es[0].key) && !HasTag(es[1].key)
    ensures ExpectedRows(es, 2, maxLength, fmt) == [
      Row(Truncate(es[0].key, maxLength), Truncate(ValueStr(es[0].value, fmt), maxLength)),
      Row(Truncate(es[1].key, maxLength), Truncate(ValueStr(es[1].value, fmt), maxLength))]
  {
    UntaggedRow(es, 0, maxLength, fmt);
    UntaggedRow(es, 1, maxLength, fmt);
    assert ExpectedRows(es, 1, maxLength, fmt) == RowsFor(es, 0, maxLength, fmt);
  }

  /** A kept, untagged entry met while no tag is in force contributes just
      its own row, with the key as it is, and leaves no tag in force. */
  lemma UntaggedRow(es: seq<Entry>, i: nat, maxLength: int, fmt: Formatter)
    requires i < |es| && Kept(es[i]) && !HasTag(es[i].key) && LastTag(es, i) == None
    ensures LastTag(es, i + 1) == None
    ensures RowsFor(es, i, maxLength, fmt) == [Row(Truncate(es[i].key, maxLength), Truncate(ValueStr(es[i].value, fmt), maxLength))]
  {
    assert !OpensTag(es, i);
  }

  /** The zip of the collision example: both keys in sorted order, neither
      tagged nor skipped. */
  lemma CollisionEntries() returns (es: seq<Entry>)
    ensures es == Zip(CollisionValues(), CollisionExcluded())
    ensures es == [Entry("abcdeX", Int(1), NoExcl), Entry("abcdeY", Int(2), NoExcl)]
    ensures Kept(es[0]) && Kept(es[1]) && !HasTag(es[0].key) && !HasTag(es[1].key)
  {
    assert Lt("abcdeX", "abcdeY");
    ZipPair("abcdeX", "abcdeY", Int(1), Int(2), NoExcl, NoExcl);
    es := [Entry("abcdeX", Int(1), NoExcl), Entry("abcdeY", Int(2), NoExcl)];
    CollisionUntagged();
  }

  /** Two keys recorded in both maps are zipped in key order, each with its
      own value and exclusion. */
  lemma ZipPair(a: string, b: string, va: Value, vb: Value, xa: Excl, xb: Excl)
    requires Lt(a, b)
    ensures Zip(map[a := va, b := vb], map[a := xa, b := xb]) == [Entry(a, va, xa), Entry(b, vb, xb)]
  {
    assert map[a := va, b := vb].Keys == map[a := xa, b := xb].Keys == {a, b};
    SortedPair(a, b);
  }

  /** Two keys sort as their order says. */
  lemma SortedPair(a: string, b: string)
    requires Lt(a, b)
    ensures Sorted({a, b}) == [a, b]
  {
    LtIrreflexive(a);
    var r := Sorted({a, b});
    assert r[0] in {a, b} && r[1] in {a, b};
    if r[0] == b {
      assert r[1] == a;
      LtTransitive(a, b, a);
    }
  }

  lemma CollisionUntagged()
    ensures !HasTag("abcdeX") && !HasTag("abcdeY") && !SkipsHuman(NoExcl)
  {
    assert '/' !in "abcdeX" && '/' !in "abcdeY";
  }

  /** Two keys recorded with `record` and no exclusion, neither holding
      media, always produce a table. */
  lemma PlainPairWritten(k1: string, k2: string, v1: Value, v2: Value, maxLength: int, fmt: Formatter)
    requires !IsMedia(v1) && !IsMedia(v2)
    ensures Render(map[k1 := v1, k2 := v2], map[k1 := NoExcl, k2 := NoExcl], maxLength, fmt).Written?
  {
    var values := map[k1 := v1, k2 := v2];
    var excluded := map[k1 := NoExcl, k2 := NoExcl];
    assert values.Keys == excluded.Keys == {k1, k2};
    assert forall k :: k in excluded ==> excluded[k] == NoExcl;
    assert forall k :: k in values ==> !IsMedia(values[k]);
    assert k1 in values && !SkipsHuman(excluded[k1]);
    RenderWrittenIff(values, excluded, maxLength, fmt);
  }

  /** A key excluded from the table writer contributes no row. */
  lemma ExcludedKeyHasNoRow(values: map<string, Value>, excluded: map<string, Excl>, j: nat, maxLength: int, fmt: Formatter)
    requires values.Keys == excluded.Keys
    requires j < |Zip(values, excluded)|
    requires SkipsHuman(excluded[Zip(values, excluded)[j].key])
    ensures RowsFor(Zip(values, excluded), j, maxLength, fmt) == []
  {
  }
}

=== FILE: human_rows.dfy ===
/** What the rows of one `HumanOutputFormat.write` call are, stated per entry
    instead of through the loop's carried variables, and the facts about the
    table that follow from it. */
module HumanRows {
  import opened Results
  import opened Strings
  import opened Values
  import opened FormatErrors
  import opened HumanFormat

  /** An entry the table writer does not skip. */
  predicate Kept(e: Entry) {
    !SkipsHuman(e.excl)
  }

  /** A kept entry whose key has a '/' after its first character. */
  predicate Tagged(e: Entry) {
    Kept(e) && HasTag(e.key)
  }

  /** A kept media value: the table writer raises on it. */
  predicate KeptMedia(e: Entry) {
    Kept(e) && IsMedia(e.value)
  }

  /** The tag of the last tagged entry among the first `n`. */
  function LastTag(es: seq<Entry>, n: nat): Option<string>
    requires n <= |es|
  {
    if n == 0 then None
    else if Tagged(es[n - 1]) then Some(TagOf(es[n - 1].key))
    else LastTag(es, n - 1)
  }

  /** The tags of the tagged entries among the first `n`. */
  function TagsBefore(es: seq<Entry>, n: nat): set<string>
    requires n <= |es|
  {
    set j | 0 <= j < n && Tagged(es[j]) :: TagOf(es[j].key)
  }

  /** Entry `i` is the first, in sorted order, to carry its tag. */
  predicate OpensTag(es: seq<Entry>, i: nat)
    requires i < |es|
  {
    Tagged(es[i]) && forall j :: 0 <= j < i && Tagged(es[j]) ==> TagOf(es[j].key) != TagOf(es[i].key)
  }

  /** The rows entry `i` contributes: none when skipped; otherwise a header
      row if it opens its tag, then its own row, displayed under the tag in
      force after it. */
  function RowsFor(es: seq<Entry>, i: nat, maxLength: int, fmt: Formatter): seq<Row>
    requires i < |es|
  {
    if !Kept(es[i]) then []
    else
      (if OpensTag(es, i) then [Row(Truncate(TagOf(es[i].key), maxLength), "")] else [])
      + [OwnRow(es[i], LastTag(es, i + 1), maxLength, fmt)]
  }

  function ExpectedRows(es: seq<Entry>, n: nat, maxLength: int, fmt: Formatter): seq<Row>
    requires n <= |es|
  {
    if n == 0 then [] else ExpectedRows(es, n - 1, maxLength, fmt) + RowsFor(es, n - 1, maxLength, fmt)
  }

  lemma TagsBeforeStep(es: seq<Entry>, n: nat)
    requires 0 < n <= |es|
    ensures Tagged(es[n - 1]) ==> TagsBefore(es, n) == TagsBefore(es, n - 1) + {TagOf(es[n - 1].key)}
    ensures !Tagged(es[n - 1]) ==> TagsBefore(es, n) == TagsBefore(es, n - 1)
    ensures Tagged(es[n - 1]) ==> (TagOf(es[n - 1].key) in TagsBefore(es, n - 1) <==> !OpensTag(es, n - 1))
  {
    if Tagged(es[n - 1]) {
      var t := TagOf(es[n - 1].key);
      if t in TagsBefore(es, n - 1) {
        var j :| 0 <= j < n - 1 && Tagged(es[j]) && TagOf(es[j].key) == t;
        assert !OpensTag(es, n - 1);
      }
    }
  }

  /** The loop state the per-entry description predicts after `n` entries. */
  function Expected(es: seq<Entry>, n: nat, maxLength: int, fmt: Formatter): ScanState
    requires n <= |es|
  {
    ScanState(ExpectedRows(es, n, maxLength, fmt), LastTag(es, n), TagsBefore(es, n))
  }

  /** While no kept media value has been met, the loop's rows, carried tag and
      tag set are exactly the per-entry description. */
  lemma {:induction false} ScanMatchesReference(es: seq<Entry>, n: nat, maxLength: int, fmt: Formatter)
    requires n <= |es|
    requires forall j :: 0 <= j < n ==> !KeptMedia(es[j])
    ensures Scan(es, n, maxLength, fmt) == Ok(Expected(es, n, maxLength, fmt))
  {
    if n == 0 {
      assert TagsBefore(es, 0) == {};
    } else {
      ScanMatchesReference(es, n - 1, maxLength, fmt);
      var e := es[n - 1];
      if !Kept(e) {
        StepSkipped(es, n, maxLength, fmt);
      } else if HasTag(e.key) {
        StepTagged(es, n, maxLength, fmt);
      } else {
        StepUntagged(es, n, maxLength, fmt);
      }
    }
  }

  /** The row an entry shows under the tag in force. */
  function OwnRow(e: Entry, tag: Option<string>, maxLength: int, fmt: Formatter): Row {
    Row(Truncate(Shown(e.key, tag), maxLength), Truncate(ValueStr(e.value, fmt), maxLength))
  }

  lemma StepOnUntagged(st: ScanState, e: Entry, maxLength: int, fmt: Formatter)
    requires !SkipsHuman(e.excl) && !IsMedia(e.value) && !HasTag(e.key)
    ensures Step(st, e, maxLength, fmt) == Ok(st.(rows := st.rows + [OwnRow(e, st.tag, maxLength, fmt)]))
  {
  }

  lemma StepOnTagged(st: ScanState, e: Entry, maxLength: int, fmt: Formatter)
    requires !SkipsHuman(e.excl) && !IsMedia(e.value) && HasTag(e.key)
    ensures var t := TagOf(e.key);
      var row := OwnRow(e, Some(t), maxLength, fmt);
      Step(st, e, maxLength, fmt) ==
        if t in st.tags then Ok(ScanState(st.rows + [row], Some(t), st.tags))
        else Ok(ScanState(st.rows + [Row(Truncate(t, maxLength), "")] + [row], Some(t), st.tags + {t}))
  {
  }

  lemma StepSkipped(es: seq<Entry>, n: nat, maxLength: int, fmt: Formatter)
    requires 0 < n <= |es| && !Kept(es[n - 1])
    ensures Step(Expected(es, n - 1, maxLength, fmt), es[n - 1], maxLength, fmt) == Ok(Expected(es, n, maxLength, fmt))
  {
    TagsBeforeStep(es, n);
    assert LastTag(es, n) == LastTag(es, n - 1);
    assert RowsFor(es, n - 1, maxLength, fmt) == [];
    assert ExpectedRows(es, n, maxLength, fmt) == ExpectedRows(es, n - 1, maxLength, fmt) + [];
    assert ExpectedRows(es, n, maxLength, fmt) == ExpectedRows(es, n - 1, maxLength, fmt);
  }

  lemma StepUntagged(es: seq<Entry>, n: nat, maxLength: int, fmt: Formatter)
    requires 0 < n <= |es| && Kept(es[n - 1]) && !IsMedia(es[n - 1].value) && !HasTag(es[n - 1].key)
    ensures Step(Expected(es, n - 1, maxLength, fmt), es[n - 1], maxLength, fmt) == Ok(Expected(es, n, maxLength, fmt))
  {
    TagsBeforeStep(es, n);
    var st := Expected(es, n - 1, maxLength, fmt);
    StepOnUntagged(st, es[n - 1], maxLength, fmt);
    assert LastTag(es, n) == LastTag(es, n - 1);
    assert RowsFor(es, n - 1, maxLength, fmt) == [OwnRow(es[n - 1], LastTag(es, n), maxLength, fmt)];
  }

  lemma StepTagged(es: seq<Entry>, n: nat, maxLength: int, fmt: Formatter)
    requires 0 < n <= |es| && Kept(es[n - 1]) && !IsMedia(es[n - 1].value) && HasTag(es[n - 1].key)
    ensures Step(Expected(es, n - 1, maxLength, fmt), es[n - 1], maxLength, fmt) == Ok(Expected(es, n, maxLength, fmt))
  {
    TagsBeforeStep(es, n);
    if OpensTag(es, n - 1) {
      StepTaggedNew(es, n, maxLength, fmt);
    } else {
      StepTaggedSeen(es, n, maxLength, fmt);
    }
  }

  lemma StepTaggedSeen(es: seq<Entry>, n: nat, maxLength: int, fmt: Formatter)
    requires 0 < n <= |es| && Tagged(es[n - 1]) && !IsMedia(es[n - 1].value)
    requires TagOf(es[n - 1].key) in TagsBefore(es, n - 1) && !OpensTag(es, n - 1)
    requires TagsBefore(es, n) == TagsBefore(es, n - 1) + {TagOf(es[n - 1].key)}
    ensures Step(Expected(es, n - 1, maxLength, fmt), es[n - 1], maxLength, fmt) == Ok(Expected(es, n, maxLength, fmt))
  {
    var st := Expected(es, n - 1, maxLength, fmt);
    var t := TagOf(es[n - 1].key);
    assert t in st.tags;
    StepOnSeenTag(st, es[n - 1], maxLength, fmt);
    TaggedSeenRows(es, n, maxLength, fmt);
    AbsorbMember(st.tags, t);
  }

  lemma AbsorbMember<T>(s: set<T>, x: T)
    requires x in s
    ensures s + {x} == s
  {
  }

  /** A tagged entry whose tag was already opened adds only its own row. */
  lemma StepOnSeenTag(st: ScanState, e: Entry, maxLength: int, fmt: Formatter)
    requires Tagged(e) && !IsMedia(e.value) && TagOf(e.key) in st.tags
    ensures Step(st, e, maxLength, fmt)
      == Ok(ScanState(st.rows + [OwnRow(e, Some(TagOf(e.key)), maxLength, fmt)], Some(TagOf(e.key)), st.tags))
  {
    StepOnTagged(st, e, maxLength, fmt);
  }

  lemma StepTaggedNew(es: seq<Entry>, n: nat, maxLength: int, fmt: Formatter)
    requires 0 < n <= |es| && !IsMedia(es[n - 1].value)
    requires OpensTag(es, n - 1) && TagOf(es[n - 1].key) !in TagsBefore(es, n - 1)
    requires TagsBefore(es, n) == TagsBefore(es, n - 1) + {TagOf(es[n - 1].key)}
    ensures Step(Expected(es, n - 1, maxLength, fmt), es[n - 1], maxLength, fmt) == Ok(Expected(es, n, maxLength, fmt))
  {
    var st := Expected(es, n - 1, maxLength, fmt);
    StepOnTagged(st, es[n - 1], maxLength, fmt);
    TaggedNewRows(es, n, maxLength, fmt);
  }

  lemma TaggedSeenRows(es: seq<Entry>, n: nat, maxLength: int, fmt: Formatter)
    requires 0 < n <= |es| && Tagged(es[n - 1]) && !OpensTag(es, n - 1)
    ensures ExpectedRows(es, n, maxLength, fmt)
      == ExpectedRows(es, n - 1, maxLength, fmt) + [OwnRow(es[n - 1], Some(TagOf(es[n - 1].key)), maxLength, fmt)]
    ensures LastTag(es, n) == Some(TagOf(es[n - 1].key))
  {
  }

  lemma TaggedNewRows(es: seq<Entry>, n: nat, maxLength: int, fmt: Formatter)
    requires 0 < n <= |es| && OpensTag(es, n - 1)
    ensures var t := TagOf(es[n - 1].key);
      ExpectedRows(es, n, maxLength, fmt)
        == ExpectedRows(es, n - 1, maxLength, fmt) + [Row(Truncate(t, maxLength), "")] + [OwnRow(es[n - 1], Some(t), maxLength, fmt)]
    ensures LastTag(es, n) == Some(TagOf(es[n - 1].key))
  {
    var t := TagOf(es[n - 1].key);
    assert RowsFor(es, n - 1, maxLength, fmt) == [Row(Truncate(t, maxLength), "")] + [OwnRow(es[n - 1], Some(t), maxLength, fmt)];
  }

  /** The loop raises exactly when some kept entry holds a media value, and
      the error names the first such value. */
  lemma {:induction false} ScanFailsAtFirstMedia(es: seq<Entry>, n: nat, maxLength: int, fmt: Formatter)
    requires n <= |es|
    ensures Scan(es, n, maxLength, fmt).Err? <==> exists j :: 0 <= j < n && KeptMedia(es[j])
    ensures Scan(es, n, maxLength, fmt).Err? ==>
      exists j :: 0 <= j < n && KeptMedia(es[j]) && (forall i :: 0 <= i < j ==> !KeptMedia(es[i]))
        && Scan(es, n, maxLength, fmt).error == FormatUnsupported(HumanFormats, MediaName(es[j].value))
  {
    if n > 0 {
      ScanFailsAtFirstMedia(es, n - 1, maxLength, fmt);
    }
  }

  /** No rows at all exactly when every entry is skipped. */
  lemma {:induction false} NoRowsIffAllSkipped(es: seq<Entry>, n: nat, maxLength: int, fmt: Formatter)
    requires n <= |es|
    ensures ExpectedRows(es, n, maxLength, fmt) == [] <==> forall j :: 0 <= j < n ==> !Kept(es[j])
  {
    if n > 0 {
      NoRowsIffAllSkipped(es, n - 1, maxLength, fmt);
      RowsForEmptyIff(es, n - 1, maxLength, fmt);
      EmptyConcat(ExpectedRows(es, n - 1, maxLength, fmt), RowsFor(es, n - 1, maxLength, fmt));
      if Kept(es[n - 1]) {
        assert ExpectedRows(es, n, maxLength, fmt) != [];
      } else {
        assert ExpectedRows(es, n, maxLength, fmt) == ExpectedRows(es, n - 1, maxLength, fmt);
      }
    }
  }

  lemma RowsForEmptyIff(es: seq<Entry>, i: nat, maxLength: int, fmt: Formatter)
    requires i < |es|
    ensures RowsFor(es, i, maxLength, fmt) == [] <==> !Kept(es[i])
  {
  }

  lemma EmptyConcat<T>(a: seq<T>, b: seq<T>)
    ensures a + b == [] <==> a == [] && b == []
  {
    if a + b == [] {
      assert |a + b| == 0;
    }
  }

  /** At most one header row per tag. */
  lemma HeaderUnique(es: seq<Entry>, i: nat, j: nat)
    requires i < |es| && j < |es|
    requires OpensTag(es, i) && OpensTag(es, j)
    requires TagOf(es[i].key) == TagOf(es[j].key)
    ensures i == j
  {
  }

  /** Every tag of a tagged entry has its header row, at or before the entry. */
  lemma {:induction false} HeaderExists(es: seq<Entry>, j: nat)
    requires j < |es| && Tagged(es[j])
    ensures exists i :: 0 <= i <= j && OpensTag(es, i) && TagOf(es[i].key) == TagOf(es[j].key)
    decreases j
  {
    if !OpensTag(es, j) {
      var k :| 0 <= k < j && Tagged(es[k]) && TagOf(es[k].key) == TagOf(es[j].key);
      HeaderExists(es, k);
    }
  }

  /** A tagged key is shown as three spaces and the rest of the key after its
      first '/'. */
  lemma TaggedRowShowsSuffix(es: seq<Entry>, i: nat, maxLength: int, fmt: Formatter)
    requires i < |es| && Tagged(es[i])
    ensures var rows := RowsFor(es, i, maxLength, fmt);
      && |rows| > 0
      && rows[|rows| - 1].key == Truncate("   " + es[i].key[Find(es[i].key, '/') + 1..], maxLength)
  {
    var key := es[i].key;
    var t := TagOf(key);
    PrefixIsContained(t, key);
    assert LastTag(es, i + 1) == Some(t);
    assert Shown(key, Some(t)) == "   " + key[|t|..];
    assert |t| == Find(key, '/') + 1;
  }

  /** The zipped entries of two maps with the same keys: each key in order,
      with its own value and exclusion. */
  lemma ZipCoversKeys(values: map<string, Value>, excluded: map<string, Excl>, k: string)
    requires values.Keys == excluded.Keys && k in values
    ensures exists j :: 0 <= j < |Zip(values, excluded)| && Zip(values, excluded)[j].key == k
  {
    var es := Zip(values, excluded);
    var ks := SortedKeys.Sorted(values.Keys);
    var j :| 0 <= j < |ks| && ks[j] == k;
    assert es[j].key == k;
  }

  /** The loop ends with no rows exactly when every entry is skipped. */
  lemma ScanEmptyIff(es: seq<Entry>, maxLength: int, fmt: Formatter)
    ensures (Scan(es, |es|, maxLength, fmt).Ok? && Scan(es, |es|, maxLength, fmt).value.rows == []) <==>
      forall j :: 0 <= j < |es| ==> !Kept(es[j])
  {
    ScanFailsAtFirstMedia(es, |es|, maxLength, fmt);
    NoRowsIffAllSkipped(es, |es|, maxLength, fmt);
    if !exists j :: 0 <= j < |es| && KeptMedia(es[j]) {
      ScanMatchesReference(es, |es|, maxLength, fmt);
    }
  }

  /** For maps with the same keys, a key satisfies a condition on its
      exclusion and value exactly when some zipped entry does. */
  lemma ZipKept(values: map<string, Value>, excluded: map<string, Excl>)
    requires values.Keys == excluded.Keys
    ensures var es := Zip(values, excluded);
      (exists k :: k in values && !SkipsHuman(excluded[k])) <==> exists j :: 0 <= j < |es| && Kept(es[j])
  {
    var es := Zip(values, excluded);
    if exists k :: k in values && !SkipsHuman(excluded[k]) {
      var k :| k in values && !SkipsHuman(excluded[k]);
      ZipCoversKeys(values, excluded, k);
      var j :| 0 <= j < |es| && es[j].key == k;
      assert Kept(es[j]);
    }
  }

  lemma ZipKeptMedia(values: map<string, Value>, excluded: map<string, Excl>)
    requires values.Keys == excluded.Keys
    ensures var es := Zip(values, excluded);
      (exists k :: k in values && !SkipsHuman(excluded[k]) && IsMedia(values[k])) <==>
        exists j :: 0 <= j < |es| && KeptMedia(es[j])
  {
    var es := Zip(values, excluded);
    if exists k :: k in values && !SkipsHuman(excluded[k]) && IsMedia(values[k]) {
      var k :| k in values && !SkipsHuman(excluded[k]) && IsMedia(values[k]);
      ZipCoversKeys(values, excluded, k);
      var j :| 0 <= j < |es| && es[j].key == k;
      assert KeptMedia(es[j]);
    }
  }

  /** `write` raises exactly when the loop over the zipped entries does. */
  lemma RenderRaisesOnScan(values: map<string, Value>, excluded: map<string, Excl>, maxLength: int, fmt: Formatter)
    ensures Render(values, excluded, maxLength, fmt).Unsupported? <==> Scan(Zip(values, excluded), |Zip(values, excluded)|, maxLength, fmt).Err?
  {
  }

  /** `write` writes nothing exactly when the loop ends without rows. */
  lemma RenderEmptyOnScan(values: map<string, Value>, excluded: map<string, Excl>, maxLength: int, fmt: Formatter)
    ensures var es := Zip(values, excluded);
      Render(values, excluded, maxLength, fmt).Empty? <==> Scan(es, |es|, maxLength, fmt).Ok? && Scan(es, |es|, maxLength, fmt).value.rows == []
  {
  }

  /** `write` on two maps recorded together (same keys) raises exactly when
      a key not excluded from "stdout" and "log" holds a video, figure or
      image. */
  lemma RenderRaisesIff(values: map<string, Value>, excluded: map<string, Excl>, maxLength: int, fmt: Formatter)
    requires values.Keys == excluded.Keys
    ensures Render(values, excluded, maxLength, fmt).Unsupported? <==>
      exists k :: k in values && !SkipsHuman(excluded[k]) && IsMedia(values[k])
  {
    var es := Zip(values, excluded);
    ZipKeptMedia(values, excluded);
    ScanFailsAtFirstMedia(es, |es|, maxLength, fmt);
    RenderRaisesOnScan(values, excluded, maxLength, fmt);
  }

  /** For any two maps, aligned or not, `write` raises exactly when some
      zipped entry (a value paired by position with an exclusion) is a kept
      media value. */
  lemma RenderRaisesOnZipped(values: map<string, Value>, excluded: map<string, Excl>, maxLength: int, fmt: Formatter)
    ensures var es := Zip(values, excluded);
      Render(values, excluded, maxLength, fmt).Unsupported? <==> exists j :: 0 <= j < |es| && KeptMedia(es[j])
  {
    var es := Zip(values, excluded);
    ScanFailsAtFirstMedia(es, |es|, maxLength, fmt);
    RenderRaisesOnScan(values, excluded, maxLength, fmt);
  }

  /** `write` on two maps recorded together writes nothing (and warns)
      exactly when every key is excluded from "stdout" or "log". */
  lemma RenderEmptyIff(values: map<string, Value>, excluded: map<string, Excl>, maxLength: int, fmt: Formatter)
    requires values.Keys == excluded.Keys
    ensures Render(values, excluded, maxLength, fmt).Empty? <==>
      forall k :: k in values ==> SkipsHuman(excluded[k])
  {
    var es := Zip(values, excluded);
    ZipKept(values, excluded);
    ScanEmptyIff(es, maxLength, fmt);
    RenderEmptyOnScan(values, excluded, maxLength, fmt);
  }

  /** When `write` writes, its lines are the table of the per-entry rows. */
  lemma RenderWritesExpectedRows(values: map<string, Value>, excluded: map<string, Excl>, maxLength: int, fmt: Formatter)
    requires Render(values, excluded, maxLength, fmt).Written?
    ensures var es := Zip(values, excluded);
      var rows := ExpectedRows(es, |es|, maxLength, fmt);
      |rows| > 0 && Render(values, excluded, maxLength, fmt).lines == Lines(rows)
  {
    var es := Zip(values, excluded);
    ScanFailsAtFirstMedia(es, |es|, maxLength, fmt);
    ScanMatchesReference(es, |es|, maxLength, fmt);
  }
}

=== FILE: logger.dfy ===
/** `Logger`: the per-step accumulation state, `record`, `record_mean`,
    `dump`, the levelled `log` family and `set_level`, as pure steps from one
    state to the next. */
module LoggerCore {
  import opened Results
  import opened Values
  import opened FormatErrors
  import opened HumanFormat
  import opened Writers

  const DEBUG := 10
  const INFO := 20
  const WARN := 30
  const ERROR := 40
  const DISABLED := 50

  /** The logger's state: this step's values, the sample counts of keys
      averaged with `record_mean`, each key's exclusion, the threshold, the
      output directory and the writers, in registration order. */
  datatype Logger = Logger(
    values: map<string, Value>,
    counts: map<string, nat>,
    excluded: map<string, Excl>,
    level: int,
    dir: Option<string>,
    writers: seq<Writer>)

  /** `Logger(folder, output_formats)`. */
  function NewLogger(dir: Option<string>, writers: seq<Writer>): (l: Logger)
    ensures l.values == map[] && l.counts == map[] && l.excluded == map[]
    ensures l.level == INFO && l.dir == dir && l.writers == writers
  {
    Logger(map[], map[], map[], INFO, dir, writers)
  }

  /** Only the three maps differ, and only at `key`. */
  predicate OnlyKeyChanged(l: Logger, r: Logger, key: string) {
    && r.values - {key} == l.values - {key}
    && r.counts - {key} == l.counts - {key}
    && r.excluded - {key} == l.excluded - {key}
    && r.level == l.level && r.dir == l.dir && r.writers == l.writers
  }

  /** `record(key, value, exclude)`: the last value and exclusion win. */
  function Record(l: Logger, key: string, value: Value, exclude: Excl): (r: Logger)
    ensures key in r.values && r.values[key] == value
    ensures key in r.excluded && r.excluded[key] == exclude
    ensures r.counts == l.counts
    ensures OnlyKeyChanged(l, r, key)
  {
    l.(values := l.values[key := value], excluded := l.excluded[key := exclude])
  }

  /** A `defaultdict(float)` read: the stored value, or 0.0. */
  function StoredOrZero(l: Logger, key: string): Value {
    if key in l.values then l.values[key] else Num(0.0)
  }

  /** A `defaultdict(int)` read: the stored count, or 0. */
  function CountOrZero(l: Logger, key: string): nat {
    if key in l.counts then l.counts[key] else 0
  }

  function AsReal(v: Value): real
    requires v.Num? || v.Int?
  {
    if v.Num? then v.x else v.i as real
  }

  /** `old * count / (count + 1) + value / (count + 1)`; `None` when Python
      raises `TypeError`. A tensor operand makes the result a tensor. */
  function MeanUpdate(prior: Value, count: nat, value: Value): (r: Option<Value>)
    ensures r.Some? <==> IsNumeric(prior) && IsNumeric(value)
    ensures r.Some? && (prior.Tensor? || value.Tensor?) ==> r.value == Tensor
    ensures r.Some? && !prior.Tensor? && !value.Tensor? ==>
      r.value == Num((AsReal(prior) * count as real + AsReal(value)) / (count as real + 1.0))
  {
    if !IsNumeric(prior) || !IsNumeric(value) then None
    else if prior.Tensor? || value.Tensor? then Some(Tensor)
    else
      var a, c, v := AsReal(prior), count as real, AsReal(value);
      var m := a * c / (c + 1.0) + v / (c + 1.0);
      DivisionDistributes(a * c, v, c + 1.0);
      assert m == (AsReal(prior) * count as real + AsReal(value)) / (count as real + 1.0);
      Some(Num(m))
  }

  lemma DivisionDistributes(x: real, y: real, d: real)
    requires d > 0.0
    ensures x / d + y / d == (x + y) / d
  {
  }

  /** The result of `record_mean`: the new state, or `TypeError` together
      with the state the two `defaultdict` reads left behind. */
  datatype MeanOutcome = Averaged(state: Logger) | MeanTypeError(state: Logger)

  /** `record_mean(key, value, exclude)`. */
  function RecordMean(l: Logger, key: string, value: Value, exclude: Excl): (r: MeanOutcome)
    ensures value.Null? ==> r.Averaged? && key in r.state.values && r.state.values[key] == Null
    ensures value.Null? ==> r.state.counts == l.counts && r.state.excluded == l.excluded
    ensures !value.Null? ==> (r.MeanTypeError? <==> !IsNumeric(value) || !IsNumeric(StoredOrZero(l, key)))
    ensures r.Averaged? && !value.Null? ==>
      && key in r.state.counts && r.state.counts[key] == CountOrZero(l, key) + 1
      && key in r.state.excluded && r.state.excluded[key] == exclude
      && key in r.state.values
      && Some(r.state.values[key]) == MeanUpdate(StoredOrZero(l, key), CountOrZero(l, key), value)
    ensures r.MeanTypeError? ==>
      && key in r.state.values && r.state.values[key] == StoredOrZero(l, key)
      && key in r.state.counts && r.state.counts[key] == CountOrZero(l, key)
      && r.state.excluded == l.excluded
    ensures OnlyKeyChanged(l, r.state, key)
  {
    if value.Null? then Averaged(l.(values := l.values[key := Null]))
    else
      var prior, count := StoredOrZero(l, key), CountOrZero(l, key);
      match MeanUpdate(prior, count, value)
      case None => MeanTypeError(l.(values := l.values[key := prior], counts := l.counts[key := count]))
      case Some(v) =>
        Averaged(l.(values := l.values[key := v], counts := l.counts[key := count + 1], excluded := l.excluded[key := exclude]))
  }

  /** One `write(values, excluded, step)` call made by `dump`. */
  datatype Call = Call(writer: nat, values: map<string, Value>, excluded: map<string, Excl>, step: int)

  /** The error a writer raises when handed these maps: only the table writer
      refuses values; the other writers are not modelled as failing. */
  function WriteError(w: Writer, values: map<string, Value>, excluded: map<string, Excl>, fmt: Formatter): (r: Option<FormatUnsupported>)
    ensures !w.Human? ==> r.None?
    ensures r.Some? ==>
      && w.Human? && Render(values, excluded, w.maxLength, fmt).Unsupported?
      && r.value == Render(values, excluded, w.maxLength, fmt).error
      && r.value.formats == HumanFormats
    ensures w.Human? && Render(values, excluded, w.maxLength, fmt).Unsupported? ==> r.Some?
  {
    match w
    case Human(_, maxLength) =>
      (match Render(values, excluded, maxLength, fmt)
       case Unsupported(e) => Some(e)
       case _ => None)
    case _ => None
  }

  predicate Raises(w: Writer, values: map<string, Value>, excluded: map<string, Excl>, fmt: Formatter) {
    WriteError(w, values, excluded, fmt).Some?
  }

  datatype Run = Run(calls: seq<Call>, error: Option<FormatUnsupported>)

  /** What each writer does when handed these maps: `None` when it writes,
      the error when it raises. */
  function Reactions(ws: seq<Writer>, values: map<string, Value>, excluded: map<string, Excl>, fmt: Formatter): (errs: seq<Option<FormatUnsupported>>)
    ensures |errs| == |ws|
    ensures forall i :: 0 <= i < |ws| ==> errs[i] == WriteError(ws[i], values, excluded, fmt)
  {
    seq(|ws|, i requires 0 <= i < |ws| => WriteError(ws[i], values, excluded, fmt))
  }

  /** The loop of `dump` over the first `n` writers, given how each reacts:
      each gets the same full maps and step, in order, until one raises. */
  function CallWriters(errs: seq<Option<FormatUnsupported>>, n: nat, values: map<string, Value>, excluded: map<string, Excl>, step: int): (r: Run)
    requires n <= |errs|
    ensures |r.calls| <= n
    ensures forall i :: 0 <= i < |r.calls| ==> r.calls[i] == Call(i, values, excluded, step)
    ensures r.error.None? ==> |r.calls| == n
    ensures r.error.Some? ==> 0 < |r.calls| && r.error == errs[|r.calls| - 1]
  {
    if n == 0 then Run([], None)
    else
      var prev := CallWriters(errs, n - 1, values, excluded, step);
      if prev.error.Some? then prev
      else Run(prev.calls + [Call(n - 1, values, excluded, step)], errs[n - 1])
  }

  /** The loop stops at the first writer that raises: it completes exactly
      when none of the first `n` raises, and every writer called before the
      one that raised did not. */
  lemma {:induction false} CallWritersStopsAtFirstError(errs: seq<Option<FormatUnsupported>>, n: nat, values: map<string, Value>, excluded: map<string, Excl>, step: int)
    requires n <= |errs|
    ensures var r := CallWriters(errs, n, values, excluded, step);
      && (r.error.None? <==> forall i :: 0 <= i < n ==> errs[i].None?)
      && (r.error.Some? ==> forall i :: 0 <= i < |r.calls| - 1 ==> errs[i].None?)
  {
    if n > 0 {
      CallWritersStopsAtFirstError(errs, n - 1, values, excluded, step);
    }
  }

  /** The result of `dump`: the calls made and the new state, or the calls
      made up to and including the writer that raised, with the state as it
      was (the maps are not cleared). */
  datatype DumpOutcome =
    | Dumped(calls: seq<Call>, state: Logger)
    | DumpRaised(calls: seq<Call>, state: Logger, error: FormatUnsupported)

  /** The writers' loop of `dump` and what follows it, given how each
      writer reacts: the maps are cleared only when no writer raised. */
  function RunWriters(l: Logger, errs: seq<Option<FormatUnsupported>>, step: int): (r: DumpOutcome)
    requires |errs| == |l.writers|
    ensures forall i :: 0 <= i < |r.calls| ==> r.calls[i] == Call(i, l.values, l.excluded, step)
    ensures r.Dumped? ==> |r.calls| == |errs| && r.state == l.(values := map[], counts := map[], excluded := map[])
    ensures r.DumpRaised? <==> exists i :: 0 <= i < |errs| && errs[i].Some?
    ensures r.DumpRaised? ==>
      && r.state == l
      && 0 < |r.calls| <= |errs|
      && Some(r.error) == errs[|r.calls| - 1]
      && forall i :: 0 <= i < |r.calls| - 1 ==> errs[i].None?
  {
    CallWritersStopsAtFirstError(errs, |errs|, l.values, l.excluded, step);
    var run := CallWriters(errs, |errs|, l.values, l.excluded, step);
    match run.error
    case Some(e) => DumpRaised(run.calls, l, e)
    case None => Dumped(run.calls, l.(values := map[], counts := map[], excluded := map[]))
  }

  /** `dump(step)`. */
  function Dump(l: Logger, step: int, fmt: Formatter): (r: DumpOutcome)
    ensures l.level == DISABLED ==> r.Dumped? && r.calls == [] && r.state == l
    ensures forall i :: 0 <= i < |r.calls| ==> r.calls[i] == Call(i, l.values, l.excluded, step)
    ensures r.Dumped? && l.level != DISABLED ==>
      && |r.calls| == |l.writers|
      && r.state == l.(values := map[], counts := map[], excluded := map[])
    ensures r.DumpRaised? <==>
      l.level != DISABLED && exists i :: 0 <= i < |l.writers| && Raises(l.writers[i], l.values, l.excluded, fmt)
    ensures r.DumpRaised? ==>
      && r.state == l
      && 0 < |r.calls| <= |l.writers|
      && Some(r.error) == WriteError(l.writers[|r.calls| - 1], l.values, l.excluded, fmt)
      && forall i :: 0 <= i < |r.calls| - 1 ==> !Raises(l.writers[i], l.values, l.excluded, fmt)
  {
    if l.level == DISABLED then Dumped([], l)
    else RunWriters(l, Reactions(l.writers, l.values, l.excluded, fmt), step)
  }

  /** One `write_sequence` call: the writer and the text it writes. */
  datatype SeqCall = SeqCall(writer: nat, text: string)

  /** `_do_log` over the first `n` writers: every sequence writer, in order,
      writes the space-joined arguments. */
  function SeqWrites(ws: seq<Writer>, n: nat, args: seq<string>): (r: seq<SeqCall>)
    requires n <= |ws|
    ensures forall i :: 0 <= i < |r| ==> r[i].writer < n && IsSeqWriter(ws[r[i].writer]) && r[i].text == SequenceText(args)
    ensures forall i, j :: 0 <= i < j < |r| ==> r[i].writer < r[j].writer
  {
    if n == 0 then []
    else
      var prev := SeqWrites(ws, n - 1, args);
      if IsSeqWriter(ws[n - 1]) then prev + [SeqCall(n - 1, SequenceText(args))] else prev
  }

  /** Every sequence writer among the first `n` is written to, and only
      they are. */
  lemma {:induction false} SeqWritesComplete(ws: seq<Writer>, n: nat, args: seq<string>)
    requires n <= |ws|
    ensures SeqWrites(ws, n, args) == [] <==> forall i :: 0 <= i < n ==> !IsSeqWriter(ws[i])
    ensures forall i :: 0 <= i < n && IsSeqWriter(ws[i]) ==> SeqCall(i, SequenceText(args)) in SeqWrites(ws, n, args)
  {
    if n > 0 {
      SeqWritesComplete(ws, n - 1, args);
      var prev := SeqWrites(ws, n - 1, args);
      var r := SeqWrites(ws, n, args);
      if IsSeqWriter(ws[n - 1]) {
        assert r == prev + [SeqCall(n - 1, SequenceText(args))];
        assert r[|prev|] == SeqCall(n - 1, SequenceText(args));
        forall i | 0 <= i < n - 1 && IsSeqWriter(ws[i])
          ensures SeqCall(i, SequenceText(args)) in r
        {
          var j :| 0 <= j < |prev| && prev[j] == SeqCall(i, SequenceText(args));
          assert r[j] == prev[j];
        }
      } else {
        assert r == prev;
      }
    }
  }

  predicate HasSeqWriter(ws: seq<Writer>) {
    exists i :: 0 <= i < |ws| && IsSeqWriter(ws[i])
  }

  /** `log(*args, level=level)`, with the arguments already converted by
      `str`: forwarded only when the threshold is at most `level`. */
  function Log(l: Logger, args: seq<string>, level: int): (r: seq<SeqCall>)
    ensures r == [] <==> l.level > level || !HasSeqWriter(l.writers)
    ensures forall i :: 0 <= i < |r| ==>
      r[i].writer < |l.writers| && IsSeqWriter(l.writers[r[i].writer]) && r[i].text == SequenceText(args)
    ensures l.level <= level ==>
      forall i :: 0 <= i < |l.writers| && IsSeqWriter(l.writers[i]) ==> SeqCall(i, SequenceText(args)) in r
  {
    SeqWritesComplete(l.writers, |l.writers|, args);
    if l.level <= level then SeqWrites(l.writers, |l.writers|, args) else []
  }

  /** `debug(*args)`. */
  function Debug(l: Logger, args: seq<string>): (r: seq<SeqCall>)
    ensures r == [] <==> l.level > DEBUG || !HasSeqWriter(l.writers)
    ensures forall i :: 0 <= i < |r| ==>
      r[i].writer < |l.writers| && IsSeqWriter(l.writers[r[i].writer]) && r[i].text == SequenceText(args)
    ensures l.level <= DEBUG ==>
      forall i :: 0 <= i < |l.writers| && IsSeqWriter(l.writers[i]) ==> SeqCall(i, SequenceText(args)) in r
  {
    Log(l, args, DEBUG)
  }

  /** `info(*args)`. */
  function Info(l: Logger, args: seq<string>): (r: seq<SeqCall>)
    ensures r == [] <==> l.level > INFO || !HasSeqWriter(l.writers)
    ensures forall i :: 0 <= i < |r| ==>
      r[i].writer < |l.writers| && IsSeqWriter(l.writers[r[i].writer]) && r[i].text == SequenceText(args)
    ensures l.level <= INFO ==>
      forall i :: 0 <= i < |l.writers| && IsSeqWriter(l.writers[i]) ==> SeqCall(i, SequenceText(args)) in r
  {
    Log(l, args, INFO)
  }

  /** `warn(*args)`. */
  function Warn(l: Logger, args: seq<string>): (r: seq<SeqCall>)
    ensures r == [] <==> l.level > WARN || !HasSeqWriter(l.writers)
    ensures forall i :: 0 <= i < |r| ==>
      r[i].writer < |l.writers| && IsSeqWriter(l.writers[r[i].writer]) && r[i].text == SequenceText(args)
    ensures l.level <= WARN ==>
      forall i :: 0 <= i < |l.writers| && IsSeqWriter(l.writers[i]) ==> SeqCall(i, SequenceText(args)) in r
  {
    Log(l, args, WARN)
  }

  /** `error(*args)`. */
  function Error(l: Logger, args: seq<string>): (r: seq<SeqCall>)
    ensures r == [] <==> l.level > ERROR || !HasSeqWriter(l.writers)
    ensures forall i :: 0 <= i < |r| ==>
      r[i].writer < |l.writers| && IsSeqWriter(l.writers[r[i].writer]) && r[i].text == SequenceText(args)
    ensures l.level <= ERROR ==>
      forall i :: 0 <= i < |l.writers| && IsSeqWriter(l.writers[i]) ==> SeqCall(i, SequenceText(args)) in r
  {
    Log(l, args, ERROR)
  }

  /** `set_level(level)`: only the threshold changes. */
  function SetLevel(l: Logger, level: int): (r: Logger)
    ensures r.level == level
    ensures r.values == l.values && r.counts == l.counts && r.excluded == l.excluded
    ensures r.dir == l.dir && r.writers == l.writers
  {
    l.(level := level)
  }

  /** `close()`: the indices of the writers whose close releases a resource,
      in the order they are closed. */
  function Close(l: Logger): (r: seq<nat>)
    ensures forall i :: 0 <= i < |r| ==> r[i] < |l.writers| && OwnsResource(l.writers[r[i]])
    ensures forall i :: 0 <= i < |l.writers| && OwnsResource(l.writers[i]) ==> i in r
    ensures forall i, j :: 0 <= i < j < |r| ==> r[i] < r[j]
  {
    Released(l.writers, |l.writers|)
  }
}

=== FILE: logger_props.dfy ===
/** Properties of the logger over several calls: averaging, the invariants
    that keep the two maps of `dump` aligned, clearing, and the level gate. */
module LoggerProps {
  import opened Results
  import opened Values
  import opened HumanFormat
  import opened HumanRows
  import opened HumanProps
  import opened Writers
  import opened LoggerCore

  // ---------------------------------------------------------------------
  // Averaging

  function Sum(xs: seq<real>): real {
    if |xs| == 0 then 0.0 else Sum(xs[..|xs| - 1]) + xs[|xs| - 1]
  }

  /** `record_mean(key, x, exclude)` for each `x` of `xs` in turn; the first
      `TypeError` ends the run. */
  function FeedMeans(l: Logger, key: string, xs: seq<real>, exclude: Excl): MeanOutcome {
    if |xs| == 0 then Averaged(l)
    else
      match FeedMeans(l, key, xs[..|xs| - 1], exclude)
      case MeanTypeError(s) => MeanTypeError(s)
      case Averaged(s) => RecordMean(s, key, Num(xs[|xs| - 1]), exclude)
  }

  /** Re-weighting a mean of `n` samples by `n` gives back their total. */
  lemma MeanTimesCount(total: real, n: nat)
    requires n > 0
    ensures total / (n as real) * (n as real) == total
  {
  }

  /** On a key with no value and no count (a fresh logger, or after `dump`),
      `n` calls of `record_mean` leave the arithmetic mean of the samples, a
      count of `n` and the last exclusion, and touch no other key. */
  lemma {:induction false} MeanOfSamples(l: Logger, key: string, xs: seq<real>, exclude: Excl)
    requires key !in l.values && key !in l.counts
    requires |xs| > 0
    ensures var r := FeedMeans(l, key, xs, exclude);
      && r.Averaged?
      && key in r.state.values && r.state.values[key] == Num(Sum(xs) / |xs| as real)
      && key in r.state.counts && r.state.counts[key] == |xs|
      && key in r.state.excluded && r.state.excluded[key] == exclude
      && OnlyKeyChanged(l, r.state, key)
  {
    var n := |xs| - 1;
    var x := xs[n];
    if n == 0 {
      assert xs[..0] == [];
      assert Sum(xs) == x;
      assert FeedMeans(l, key, xs, exclude) == RecordMean(l, key, Num(x), exclude);
    } else {
      MeanOfSamples(l, key, xs[..n], exclude);
      var s := FeedMeans(l, key, xs[..n], exclude).state;
      assert FeedMeans(l, key, xs, exclude) == RecordMean(s, key, Num(x), exclude);
      assert Sum(xs) == Sum(xs[..n]) + x;
      MeanStep(l, s, key, Sum(xs[..n]), n, x, exclude);
    }
  }

  lemma MeanUpdateOnNumbers(a: real, n: nat, x: real)
    ensures MeanUpdate(Num(a), n, Num(x)) == Some(Num((a * n as real + x) / (n as real + 1.0)))
  {
    var u := MeanUpdate(Num(a), n, Num(x));
    assert u.Some?;
    assert AsReal(Num(a)) == a && AsReal(Num(x)) == x;
    assert u.value == Num((AsReal(Num(a)) * n as real + AsReal(Num(x))) / (n as real + 1.0));
    assert u.value == Num((a * n as real + x) / (n as real + 1.0));
    assert u == Some(u.value);
  }

  /** One more sample on top of a running mean of `n` samples. */
  lemma MeanStep(l: Logger, s: Logger, key: string, total: real, n: nat, x: real, exclude: Excl)
    requires n > 0 && OnlyKeyChanged(l, s, key)
    requires key in s.values && s.values[key] == Num(total / n as real)
    requires key in s.counts && s.counts[key] == n
    ensures var r := RecordMean(s, key, Num(x), exclude);
      && r.Averaged?
      && key in r.state.values && r.state.values[key] == Num((total + x) / (n + 1) as real)
      && key in r.state.counts && r.state.counts[key] == n + 1
      && key in r.state.excluded && r.state.excluded[key] == exclude
      && OnlyKeyChanged(l, r.state, key)
  {
    var r := RecordMean(s, key, Num(x), exclude);
    var a := total / n as real;
    assert StoredOrZero(s, key) == Num(a) && CountOrZero(s, key) == n;
    MeanUpdateOnNumbers(a, n, x);
    var v := (a * n as real + x) / (n as real + 1.0);
    assert Some(r.state.values[key]) == Some(Num(v));
    MeanTimesCount(total, n);
    assert a * (n as real) + x == total + x;
    assert (n as real) + 1.0 == (n + 1) as real;
    OnlyKeyChangedTransitive(l, s, r.state, key);
  }

  lemma OnlyKeyChangedTransitive(a: Logger, b: Logger, c: Logger, key: string)
    requires OnlyKeyChanged(a, b, key) && OnlyKeyChanged(b, c, key)
    ensures OnlyKeyChanged(a, c, key)
  {
  }

  lemma {:induction false} SumConcat(a: seq<real>, b: seq<real>)
    ensures Sum(a + b) == Sum(a) + Sum(b)
    decreases |b|
  {
    if |b| == 0 {
      assert a + b == a;
    } else {
      var b' := b[..|b| - 1];
      assert (a + b)[..|a + b| - 1] == a + b';
      SumConcat(a, b');
    }
  }

  /** The sum does not depend on the order of the samples. */
  lemma {:induction false} SumPermutation(xs: seq<real>, ys: seq<real>)
    requires multiset(xs) == multiset(ys)
    ensures Sum(xs) == Sum(ys)
    decreases |xs|
  {
    if |xs| == 0 {
      assert |ys| == |multiset(ys)| == 0;
    } else {
      var n := |xs| - 1;
      var x := xs[n];
      assert x in multiset(xs);
      var j :| 0 <= j < |ys| && ys[j] == x;
      var rest := ys[..j] + ys[j + 1..];
      RemoveOne(xs, ys, j);
      SumPermutation(xs[..n], rest);
      SumRemove(ys, j);
    }
  }

  /** Taking the last sample off one list and a matching sample off the
      other keeps them permutations of each other. */
  lemma RemoveOne(xs: seq<real>, ys: seq<real>, j: nat)
    requires |xs| > 0 && j < |ys| && ys[j] == xs[|xs| - 1]
    requires multiset(xs) == multiset(ys)
    ensures multiset(xs[..|xs| - 1]) == multiset(ys[..j] + ys[j + 1..])
  {
    var n := |xs| - 1;
    var x := xs[n];
    var a, b := ys[..j], ys[j + 1..];
    SplitAround(ys, j);
    SplitAround(xs, n);
    assert xs[n + 1..] == [];
    assert multiset(ys) == multiset(a) + multiset{x} + multiset(b);
    assert multiset(a + b) == multiset(a) + multiset(b);
    assert multiset(xs) == multiset(xs[..n]) + multiset{x};
    assert multiset(xs[..n]) == multiset(xs) - multiset{x};
    assert multiset(a + b) == multiset(ys) - multiset{x};
  }

  lemma SplitAround<T>(s: seq<T>, j: nat)
    requires j < |s|
    ensures s == s[..j] + [s[j]] + s[j + 1..]
  {
  }

  lemma SumSingleton(x: real)
    ensures Sum([x]) == x
  {
    assert [x][..0] == [];
  }

  lemma SumRemove(ys: seq<real>, j: nat)
    requires j < |ys|
    ensures Sum(ys) == Sum(ys[..j] + ys[j + 1..]) + ys[j]
  {
    var x := ys[j];
    var a, b := ys[..j], ys[j + 1..];
    SplitAround(ys, j);
    SumConcat(a + [x], b);
    SumConcat(a, [x]);
    SumSingleton(x);
    SumConcat(a, b);
  }

  /** Two loggers that differ from a common state only at `key`, and agree
      there, are the same logger. */
  lemma SameAtKey(l: Logger, a: Logger, b: Logger, key: string)
    requires OnlyKeyChanged(l, a, key) && OnlyKeyChanged(l, b, key)
    requires key in a.values && key in b.values && a.values[key] == b.values[key]
    requires key in a.counts && key in b.counts && a.counts[key] == b.counts[key]
    requires key in a.excluded && key in b.excluded && a.excluded[key] == b.excluded[key]
    ensures a == b
  {
    assert a.values == b.values by {
      forall k | k != key ensures (k in a.values <==> k in b.values) && (k in a.values ==> a.values[k] == b.values[k]) {
        assert (k in a.values <==> k in a.values - {key}) && (k in b.values <==> k in b.values - {key});
        if k in a.values { assert a.values[k] == (a.values - {key})[k]; assert b.values[k] == (b.values - {key})[k]; }
      }
    }
    assert a.counts == b.counts by {
      forall k | k != key ensures (k in a.counts <==> k in b.counts) && (k in a.counts ==> a.counts[k] == b.counts[k]) {
        assert (k in a.counts <==> k in a.counts - {key}) && (k in b.counts <==> k in b.counts - {key});
        if k in a.counts { assert a.counts[k] == (a.counts - {key})[k]; assert b.counts[k] == (b.counts - {key})[k]; }
      }
    }
    assert a.excluded == b.excluded by {
      forall k | k != key ensures (k in a.excluded <==> k in b.excluded) && (k in a.excluded ==> a.excluded[k] == b.excluded[k]) {
        assert (k in a.excluded <==> k in a.excluded - {key}) && (k in b.excluded <==> k in b.excluded - {key});
        if k in a.excluded { assert a.excluded[k] == (a.excluded - {key})[k]; assert b.excluded[k] == (b.excluded - {key})[k]; }
      }
    }
  }

  /** Averaging on a fresh key gives the same logger whatever order the
      samples arrive in. */
  lemma MeanOrderIndependent(l: Logger, key: string, xs: seq<real>, ys: seq<real>, exclude: Excl)
    requires key !in l.values && key !in l.counts
    requires |xs| > 0 && multiset(xs) == multiset(ys)
    ensures FeedMeans(l, key, xs, exclude) == FeedMeans(l, key, ys, exclude)
  {
    assert |ys| == |multiset(ys)| == |multiset(xs)| == |xs|;
    MeanOfSamples(l, key, xs, exclude);
    MeanOfSamples(l, key, ys, exclude);
    SumPermutation(xs, ys);
    SameAtKey(l, FeedMeans(l, key, xs, exclude).state, FeedMeans(l, key, ys, exclude).state, key);
  }

  /** `record` twice on one key: the second call wins outright. */
  lemma RecordOverwrites(l: Logger, key: string, v1: Value, e1: Excl, v2: Value, e2: Excl)
    ensures Record(Record(l, key, v1, e1), key, v2, e2) == Record(l, key, v2, e2)
  {
  }

  /** `record_mean(key, None)` stores `None` without resetting the count, so
      the next numeric `record_mean` on that key raises `TypeError`. */
  lemma NullThenMeanRaises(l: Logger, key: string, e1: Excl, x: real, e2: Excl)
    ensures RecordMean(l, key, Null, e1).Averaged?
    ensures RecordMean(RecordMean(l, key, Null, e1).state, key, Num(x), e2).MeanTypeError?
  {
  }

  // ---------------------------------------------------------------------
  // The alignment invariant

  /** Every key with a value has an exclusion and the other way round, so
      the two sorted item lists `dump` hands to the writers pair up by key. */
  predicate Aligned(l: Logger) {
    l.values.Keys == l.excluded.Keys
  }

  /** Every averaged key has a value. */
  predicate CountsTracked(l: Logger) {
    l.counts.Keys <= l.values.Keys
  }

  predicate Invariant(l: Logger) {
    Aligned(l) && CountsTracked(l)
  }

  lemma NewLoggerInvariant(dir: Option<string>, writers: seq<Writer>)
    ensures Invariant(NewLogger(dir, writers))
  {
  }

  lemma RecordPreservesInvariant(l: Logger, key: string, value: Value, exclude: Excl)
    requires Invariant(l)
    ensures Invariant(Record(l, key, value, exclude))
  {
  }

  /** A numeric `record_mean` that succeeds keeps the maps aligned. */
  lemma RecordMeanPreservesInvariant(l: Logger, key: string, value: Value, exclude: Excl)
    requires Invariant(l) && !value.Null?
    requires RecordMean(l, key, value, exclude).Averaged?
    ensures Invariant(RecordMean(l, key, value, exclude).state)
  {
    var r := RecordMean(l, key, value, exclude).state;
    assert r.values.Keys == l.values.Keys + {key};
    assert r.excluded.Keys == l.excluded.Keys + {key};
    assert r.counts.Keys == l.counts.Keys + {key};
  }

  /** `record_mean(key, None)` on a key never recorded gives it a value but
      no exclusion. */
  lemma RecordMeanNullBreaksAlignment(l: Logger, key: string, exclude: Excl)
    requires Invariant(l) && key !in l.values
    ensures !Aligned(RecordMean(l, key, Null, exclude).state)
  {
    assert key in RecordMean(l, key, Null, exclude).state.values;
  }

  /** A `record_mean` on a new key that raises `TypeError` has already
      stored 0.0 under the key, again without an exclusion. */
  lemma RecordMeanErrorBreaksAlignment(l: Logger, key: string, value: Value, exclude: Excl)
    requires Invariant(l) && key !in l.values && !value.Null? && !IsNumeric(value)
    ensures RecordMean(l, key, value, exclude).MeanTypeError?
    ensures !Aligned(RecordMean(l, key, value, exclude).state)
  {
    assert key in RecordMean(l, key, value, exclude).state.values;
  }

  lemma DumpPreservesInvariant(l: Logger, step: int, fmt: Formatter)
    requires Invariant(l)
    ensures Invariant(Dump(l, step, fmt).state)
  {
  }

  /** With aligned maps a table writer raises exactly when some value it
      does not skip is media. */
  lemma HumanRaisesIff(w: Writer, l: Logger, fmt: Formatter)
    requires Aligned(l) && w.Human?
    ensures Raises(w, l.values, l.excluded, fmt) <==>
      exists k :: k in l.values && !SkipsHuman(l.excluded[k]) && IsMedia(l.values[k])
  {
    RenderRaisesIff(l.values, l.excluded, w.maxLength, fmt);
  }

  /** With aligned maps `dump` raises exactly when there is a table writer
      and a value it does not skip is media. */
  lemma DumpRaisesIff(l: Logger, step: int, fmt: Formatter)
    requires Aligned(l) && l.level != DISABLED
    ensures Dump(l, step, fmt).DumpRaised? <==>
      && (exists i :: 0 <= i < |l.writers| && l.writers[i].Human?)
      && (exists k :: k in l.values && !SkipsHuman(l.excluded[k]) && IsMedia(l.values[k]))
  {
    var media := exists k :: k in l.values && !SkipsHuman(l.excluded[k]) && IsMedia(l.values[k]);
    forall i | 0 <= i < |l.writers|
      ensures Raises(l.writers[i], l.values, l.excluded, fmt) <==> l.writers[i].Human? && media
    {
      if l.writers[i].Human? {
        HumanRaisesIff(l.writers[i], l, fmt);
      }
    }
  }

  /** The state after `record("b", 1)` and then `record_mean("a", None)`. */
  lemma NullMeanScenarioState()
    ensures var l0 := NewLogger(None, [Human(Stdout, DefaultMaxLength)]);
      var l1 := Record(l0, "b", Int(1), NoExcl);
      RecordMean(l1, "a", Null, NoExcl).state
        == Logger(map["a" := Null, "b" := Int(1)], map[], map["b" := NoExcl], INFO, None, [Human(Stdout, DefaultMaxLength)])
  {
    var l0 := NewLogger(None, [Human(Stdout, DefaultMaxLength)]);
    var l1 := Record(l0, "b", Int(1), NoExcl);
    assert l1.values == map["b" := Int(1)] && l1.excluded == map["b" := NoExcl];
    assert l1.values["a" := Null] == map["a" := Null, "b" := Int(1)];
  }

  /** The scenario behind the misalignment: `record("b", 1)`, then
      `record_mean("a", None)`, then `dump` to the console table. The table
      shows only "a", and "b" is silently lost. */
  lemma NullMeanHidesRecordedKey(fmt: Formatter)
    ensures var l0 := NewLogger(None, [Human(Stdout, DefaultMaxLength)]);
      var l1 := Record(l0, "b", Int(1), NoExcl);
      var l2 := RecordMean(l1, "a", Null, NoExcl).state;
      var d := Dump(l2, 0, fmt);
      && d.Dumped?
      && d.calls == [Call(0, map["a" := Null, "b" := Int(1)], map["b" := NoExcl], 0)]
      && Render(d.calls[0].values, d.calls[0].excluded, DefaultMaxLength, fmt) == Written(Lines([Row("a", "None")]))
  {
    NullMeanScenarioState();
    var l2 := Logger(map["a" := Null, "b" := Int(1)], map[], map["b" := NoExcl], INFO, None, [Human(Stdout, DefaultMaxLength)]);
    ZipMisalignsKeys(fmt);
    DumpSingleWriter(l2, 0, fmt);
  }

  lemma DumpSingleWriter(l: Logger, step: int, fmt: Formatter)
    requires |l.writers| == 1 && l.level != DISABLED && !Raises(l.writers[0], l.values, l.excluded, fmt)
    ensures Dump(l, step, fmt).Dumped? && Dump(l, step, fmt).calls == [Call(0, l.values, l.excluded, step)]
  {
  }

  // ---------------------------------------------------------------------
  // Clearing and the level gate

  /** After a complete `dump` the next one hands every writer empty maps,
      nothing raises, and a table writer writes nothing. */
  lemma SecondDumpWritesNothing(l: Logger, step1: int, step2: int, fmt: Formatter)
    requires Dump(l, step1, fmt).Dumped? && l.level != DISABLED
    ensures var s := Dump(l, step1, fmt).state;
      var d := Dump(s, step2, fmt);
      && d == Dumped(d.calls, s)
      && |d.calls| == |l.writers|
      && (forall i :: 0 <= i < |d.calls| ==> d.calls[i] == Call(i, map[], map[], step2))
      && (forall m :: Render(map[], map[], m, fmt) == Empty)
  {
    var s := Dump(l, step1, fmt).state;
    forall m ensures Render(map[], map[], m, fmt) == Empty {
      RenderEmptyIff(map[], map[], m, fmt);
    }
    assert !exists i :: 0 <= i < |s.writers| && Raises(s.writers[i], s.values, s.excluded, fmt);
  }

  /** `set_level(DISABLED)` turns `dump` into a no-op and silences every
      levelled shorthand; only `log(..., level=DISABLED)` still writes. */
  lemma DisabledSilences(l: Logger, step: int, args: seq<string>, fmt: Formatter)
    ensures var d := SetLevel(l, DISABLED);
      && Dump(d, step, fmt) == Dumped([], d)
      && Debug(d, args) == [] && Info(d, args) == [] && Warn(d, args) == [] && Error(d, args) == []
      && (Log(d, args, DISABLED) == [] <==> !HasSeqWriter(l.writers))
  {
  }

  /** A message that passes the threshold at one level passes it, with the
      same writes, at every higher level. */
  lemma LogMonotone(l: Logger, args: seq<string>, a: int, b: int)
    requires a <= b && Log(l, args, a) != []
    ensures Log(l, args, b) == Log(l, args, a)
  {
  }

  /** The shorthands are `log` at their fixed levels, which are ordered. */
  lemma ShorthandsOrdered(l: Logger, args: seq<string>)
    ensures Debug(l, args) != [] ==> Info(l, args) == Debug(l, args)
    ensures Info(l, args) != [] ==> Warn(l, args) == Info(l, args)
    ensures Warn(l, args) != [] ==> Error(l, args) == Warn(l, args)
  {
  }
}

=== FILE: results.dfy ===
/** Failure-carrying wrappers shared by the model: Python's `None`-able values
    and calls that either return or raise. */
module Results {

  datatype Option<+T> = None | Some(value: T)

  datatype Result<+T, +E> = Ok(value: T) | Err(error: E)
}

=== FILE: sorted_keys.dfy ===
/** The key order of `sorted(d.items())`: a dict's keys in ascending `str`
    order. Keys are unique, so sorting the items sorts by key alone. */
module SortedKeys {
  import opened Strings

  predicate IsLeast(k: string, s: set<string>) {
    k in s && forall x :: x in s && x != k ==> Lt(k, x)
  }

  predicate StrictlyIncreasing(r: seq<string>) {
    forall i, j :: 0 <= i < j < |r| ==> Lt(r[i], r[j])
  }

  lemma {:induction false} LeastExists(s: set<string>)
    requires s != {}
    ensures exists k :: IsLeast(k, s)
    decreases |s|
  {
    var a :| a in s;
    if s - {a} == {} {
      forall x | x in s
        ensures x == a
      {
        assert x !in s - {a};
      }
      assert IsLeast(a, s);
    } else {
      LeastExists(s - {a});
      var b :| IsLeast(b, s - {a});
      LtTotal(a, b);
      if Lt(a, b) {
        forall x | x in s && x != a
          ensures Lt(a, x)
        {
          if x != b {
            LtTransitive(a, b, x);
          }
        }
        assert IsLeast(a, s);
      } else {
        assert IsLeast(b, s);
      }
    }
  }

  lemma LeastUnique(s: set<string>)
    ensures forall k1, k2 :: IsLeast(k1, s) && IsLeast(k2, s) ==> k1 == k2
  {
    forall k1, k2 | IsLeast(k1, s) && IsLeast(k2, s)
      ensures k1 == k2
    {
      if k1 != k2 {
        LtTransitive(k1, k2, k1);
        LtIrreflexive(k1);
      }
    }
  }

  /** The smallest key of a non-empty set. */
  function Least(s: set<string>): (k: string)
    requires s != {}
    ensures IsLeast(k, s)
  {
    LeastExists(s);
    LeastUnique(s);
    var k :| IsLeast(k, s); k
  }

  /** The keys of `s` in ascending order, each exactly once. */
  function Sorted(s: set<string>): (r: seq<string>)
    ensures |r| == |s|
    ensures forall i :: 0 <= i < |r| ==> r[i] in s
    ensures forall k :: k in s ==> k in r
    ensures StrictlyIncreasing(r)
    decreases |s|
  {
    if s == {} then []
    else
      var k := Least(s);
      var rest := Sorted(s - {k});
      assert forall i :: 0 <= i < |rest| ==> Lt(k, rest[i]);
      [k] + rest
  }

  /** A strictly increasing sequence has no repeated key. */
  lemma IncreasingDistinct(r: seq<string>, i: int, j: int)
    requires StrictlyIncreasing(r)
    requires 0 <= i < |r| && 0 <= j < |r| && i != j
    ensures r[i] != r[j]
  {
    LtIrreflexive(r[i]);
  }
}

=== FILE: strings.dfy ===
/** Text primitives with Python `str` semantics: ordering, `find`, the `in`
    substring test, `join`, `split`, slicing and repetition. */
module Strings {

  /** Python's `a < b` on `str`: lexicographic by code point, and a proper
      prefix sorts first. */
  predicate Lt(a: string, b: string)
    decreases |a|
  {
    if |a| == 0 then |b| > 0
    else |b| > 0 && (a[0] < b[0] || (a[0] == b[0] && Lt(a[1..], b[1..])))
  }

  lemma {:induction false} LtIrreflexive(a: string)
    ensures !Lt(a, a)
    decreases |a|
  {
    if |a| > 0 {
      LtIrreflexive(a[1..]);
    }
  }

  lemma {:induction false} LtTransitive(a: string, b: string, c: string)
    requires Lt(a, b) && Lt(b, c)
    ensures Lt(a, c)
    decreases |a|
  {
    if |a| > 0 && a[0] == b[0] && b[0] == c[0] {
      LtTransitive(a[1..], b[1..], c[1..]);
    }
  }

  lemma {:induction false} LtTotal(a: string, b: string)
    ensures a == b || Lt(a, b) || Lt(b, a)
    decreases |a|
  {
    if |a| > 0 && |b| > 0 && a[0] == b[0] {
      LtTotal(a[1..], b[1..]);
      assert a == [a[0]] + a[1..] && b == [b[0]] + b[1..];
    }
  }

  /** `s.find(c)`: the index of the first `c`, or -1. */
  function Find(s: string, c: char): (r: int)
    ensures -1 <= r < |s|
    ensures r == -1 <==> c !in s
    ensures r >= 0 ==> s[r] == c && c !in s[..r]
  {
    if |s| == 0 then -1
    else if s[0] == c then 0
    else
      var i := Find(s[1..], c);
      if i < 0 then -1
      else
        assert s[..i + 1] == [s[0]] + s[1..][..i];
        i + 1
  }

  /** Python's `sub in s` on two strings. */
  predicate Contains(s: string, sub: string) {
    exists i :: 0 <= i <= |s| - |sub| && IsPrefix(sub, s[i..])
  }

  predicate IsPrefix(p: string, s: string) {
    |p| <= |s| && s[..|p|] == p
  }

  lemma PrefixIsContained(p: string, s: string)
    requires IsPrefix(p, s)
    ensures Contains(s, p)
  {
    assert s[0..] == s;
  }

  /** `sep.join(parts)`. */
  function Join(parts: seq<string>, sep: string): string
    decreases |parts|
  {
    if |parts| == 0 then ""
    else if |parts| == 1 then parts[0]
    else parts[0] + sep + Join(parts[1..], sep)
  }

  lemma {:induction false} JoinSnoc(parts: seq<string>, sep: string, last: string)
    requires |parts| > 0
    ensures Join(parts + [last], sep) == Join(parts, sep) + sep + last
    decreases |parts|
  {
    if |parts| == 1 {
      assert parts + [last] == [parts[0], last];
      assert (parts + [last])[1..] == [last];
    } else {
      assert (parts + [last])[1..] == parts[1..] + [last];
      JoinSnoc(parts[1..], sep, last);
    }
  }

  /** `s.split(c)` for a one-character separator. */
  function Split(s: string, c: char): (parts: seq<string>)
    ensures |parts| > 0
    ensures forall i :: 0 <= i < |parts| ==> c !in parts[i]
    decreases |s|
  {
    var i := Find(s, c);
    if i < 0 then [s] else [s[..i]] + Split(s[i + 1..], c)
  }

  /** Splitting undoes joining when no part contains the separator. */
  lemma {:induction false} SplitJoin(parts: seq<string>, c: char)
    requires |parts| > 0
    requires forall i :: 0 <= i < |parts| ==> c !in parts[i]
    ensures Split(Join(parts, [c]), c) == parts
    decreases |parts|
  {
    if |parts| > 1 {
      var head, rest := parts[0], Join(parts[1..], [c]);
      var s := head + [c] + rest;
      assert Join(parts, [c]) == s;
      FindAfter(head, c, rest);
      assert s[..|head|] == head;
      assert s[|head| + 1..] == rest;
      SplitAt(s, c);
      SplitJoin(parts[1..], c);
      assert parts == [head] + parts[1..];
    }
  }

  lemma SplitAt(s: string, c: char)
    requires Find(s, c) >= 0
    ensures Split(s, c) == [s[..Find(s, c)]] + Split(s[Find(s, c) + 1..], c)
  {
  }

  lemma FindAfter(a: string, c: char, b: string)
    requires c !in a
    ensures Find(a + [c] + b, c) == |a|
  {
    assert (a + [c] + b)[|a|] == c;
  }

  /** Joining undoes splitting. */
  lemma {:induction false} JoinSplit(s: string, c: char)
    ensures Join(Split(s, c), [c]) == s
    decreases |s|
  {
    var i := Find(s, c);
    if i >= 0 {
      var tail := Split(s[i + 1..], c);
      JoinSplit(s[i + 1..], c);
      SplitAt(s, c);
      JoinCons(s[..i], tail, [c]);
      assert s == s[..i] + [c] + s[i + 1..];
    }
  }

  lemma JoinCons(head: string, tail: seq<string>, sep: string)
    requires |tail| > 0
    ensures Join([head] + tail, sep) == head + sep + Join(tail, sep)
  {
    assert ([head] + tail)[1..] == tail;
  }

  /** `ch * n` for a non-negative count. */
  function Repeat(ch: char, n: nat): (r: string)
    ensures |r| == n
    ensures forall i :: 0 <= i < n ==> r[i] == ch
  {
    if n == 0 then "" else [ch] + Repeat(ch, n - 1)
  }

  /** Python's `s[:j]`, with negative `j` counted from the end. */
  function PyPrefix(s: string, j: int): (r: string)
    ensures IsPrefix(r, s)
    ensures j >= 0 ==> |r| == if j <= |s| then j else |s|
    ensures j < 0 ==> |r| == if |s| + j >= 0 then |s| + j else 0
  {
    if j >= 0 then (if j <= |s| then s[..j] else s)
    else if |s| + j >= 0 then s[..|s| + j]
    else ""
  }

  /** The length of the longest string (0 for none): `max(map(len, ss))`. */
  function MaxLen(ss: seq<string>): (r: nat)
    ensures forall i :: 0 <= i < |ss| ==> |ss[i]| <= r
    ensures |ss| > 0 ==> exists i :: 0 <= i < |ss| && |ss[i]| == r
    decreases |ss|
  {
    if |ss| == 0 then 0
    else
      var rest := MaxLen(ss[1..]);
      if |ss[0]| >= rest then |ss[0]| else rest
  }
}

=== FILE: values.dfy ===
/** What a caller can record under a key, and the per-key exclusion spec. */
module Values {
  import opened Strings

  /** A recorded value, dispatched on by each writer. `Num` is a Python
      `float`; `Int` an `int` or `bool`; the media wrappers `Video`, `Figure`
      and `Image` carry payloads no writer here interprets. */
  datatype Value =
    | Num(x: real)
    | Int(i: int)
    | Text(s: string)
    | Tensor
    | Video
    | Figure
    | Image
    | Null

  /** The `exclude` argument of `record`: `None`, one `str`, or a tuple of
      `str`. */
  datatype Excl = NoExcl | Str(s: string) | Tup(items: seq<string>)

  /** Python's `token in excluded`: a substring test on a `str`, membership
      on a tuple. */
  predicate Names(e: Excl, token: string) {
    match e
    case NoExcl => false
    case Str(s) => Contains(s, token)
    case Tup(items) => token in items
  }

  /** `excluded is not None and token in excluded`. */
  predicate ExcludedFrom(e: Excl, token: string) {
    !e.NoExcl? && Names(e, token)
  }

  predicate IsMedia(v: Value) {
    v.Video? || v.Figure? || v.Image?
  }

  /** The value description a backend gives when it refuses a media value. */
  function MediaName(v: Value): (r: string)
    requires IsMedia(v)
    ensures v.Video? <==> r == "video"
    ensures v.Figure? <==> r == "figure"
    ensures v.Image? <==> r == "image"
  {
    if v.Video? then "video" else if v.Figure? then "figure" else "image"
  }

  /** Values that take part in `*` and `/` with an `int` without raising. */
  predicate IsNumeric(v: Value) {
    v.Num? || v.Int? || v.Tensor?
  }
}

=== FILE: writers.dfy ===
/** The output formats a logger writes to, the factory that builds them from
    a name, and what closing them releases. */
module Writers {
  import opened Results
  import opened Strings
  import HumanFormat

  /** Where a table writer writes: standard output (not owned) or a file it
      opened itself (owned). */
  datatype Sink = Stdout | File(path: string)

  /** Every format is a key-value writer; only the table writer is also a
      sequence writer. The TensorBoard and W&B writers are kept abstract. */
  datatype Writer =
    | Human(sink: Sink, maxLength: int)
    | TensorBoard(folder: string)
    | Wandb

  predicate IsSeqWriter(w: Writer) {
    w.Human?
  }

  /** The parts of the environment the factory consults: whether the
      tensorboard package imported, and whether a W&B run is active. */
  datatype Env = Env(tensorboardInstalled: bool, wandbRunActive: bool)

  datatype FactoryError =
    | UnknownFormat(name: string)
    | TensorboardMissing
    | WandbNotInitialized

  /** `os.path.join(dir, name)` for a relative `name`. */
  function JoinPath(dir: string, name: string): (p: string)
    ensures IsSuffixOf(name, p)
    ensures IsPrefix(dir, p)
    ensures |p| <= |dir| + 1 + |name|
    ensures |dir| > 0 && dir[|dir| - 1] != '/' ==> |p| > |dir| && p[|dir|] == '/'
    ensures |p| == |dir| + |name| + (if |dir| > 0 && dir[|dir| - 1] != '/' then 1 else 0)
  {
    if |dir| == 0 then name
    else if dir[|dir| - 1] == '/' then dir + name
    else dir + "/" + name
  }

  predicate IsSuffixOf(t: string, s: string) {
    |t| <= |s| && s[|s| - |t|..] == t
  }

  /** `make_output_format(format, log_dir, log_suffix)`, without creating the
      directory. */
  function MakeOutputFormat(format: string, logDir: string, logSuffix: string, env: Env): (r: Result<Writer, FactoryError>)
    ensures r == Err(UnknownFormat(format)) <==> format !in {"stdout", "log", "tensorboard", "wandb"}
    ensures r.Ok? && r.value.Human? ==> r.value.maxLength == HumanFormat.DefaultMaxLength
    ensures r.Ok? && r.value.Human? && r.value.sink.File? ==>
      && IsSuffixOf("log" + logSuffix + ".txt", r.value.sink.path)
      && IsPrefix(logDir, r.value.sink.path)
    ensures r.Ok? && r.value.TensorBoard? ==> r.value.folder == logDir
  {
    if format == "stdout" then Ok(Human(Stdout, HumanFormat.DefaultMaxLength))
    else if format == "log" then Ok(Human(File(JoinPath(logDir, "log" + logSuffix + ".txt")), HumanFormat.DefaultMaxLength))
    else if format == "tensorboard" then
      if env.tensorboardInstalled then Ok(TensorBoard(logDir)) else Err(TensorboardMissing)
    else if format == "wandb" then
      if env.wandbRunActive then Ok(Wandb) else Err(WandbNotInitialized)
    else Err(UnknownFormat(format))
  }

  /** The format name a writer is built from. */
  function FormatName(w: Writer): string {
    match w
    case Human(Stdout, _) => "stdout"
    case Human(File(_), _) => "log"
    case TensorBoard(_) => "tensorboard"
    case Wandb => "wandb"
  }

  /** The factory's result names the requested format: distinct names never
      build the same writer. */
  lemma MakeOutputFormatNamesFormat(format: string, logDir: string, logSuffix: string, env: Env)
    requires MakeOutputFormat(format, logDir, logSuffix, env).Ok?
    ensures FormatName(MakeOutputFormat(format, logDir, logSuffix, env).value) == format
  {
  }

  /** The factory fails only on an unknown name or a missing prerequisite of
      the named backend. */
  lemma MakeOutputFormatFailures(format: string, logDir: string, logSuffix: string, env: Env)
    ensures MakeOutputFormat(format, logDir, logSuffix, env).Err? <==>
      || format !in {"stdout", "log", "tensorboard", "wandb"}
      || (format == "tensorboard" && !env.tensorboardInstalled)
      || (format == "wandb" && !env.wandbRunActive)
  {
  }

  /** Closing a writer releases a resource it owns: a file it opened or a
      TensorBoard summary writer. Standard output and W&B release nothing. */
  predicate OwnsResource(w: Writer) {
    (w.Human? && w.sink.File?) || w.TensorBoard?
  }

  /** `Logger.close`: each writer is closed in list order; the indices of the
      first `n` writers whose close releases a resource. */
  function Released(ws: seq<Writer>, n: nat): (r: seq<nat>)
    requires n <= |ws|
    ensures forall i :: 0 <= i < |r| ==> r[i] < n && OwnsResource(ws[r[i]])
    ensures forall i :: 0 <= i < n && OwnsResource(ws[i]) ==> i in r
    ensures forall i, j :: 0 <= i < j < |r| ==> r[i] < r[j]
  {
    if n == 0 then []
    else
      var prev := Released(ws, n - 1);
      if OwnsResource(ws[n - 1]) then prev + [n - 1] else prev
  }
}
